=== FILE: README.md ===
# QuickSwap interface: decision logic of seven components

This project models, in Dafny, the decision logic of seven React components of a
Polygon DEX front end. It states and proves properties about each one.

- **RemoveLiquidityModal**. It computes the withdrawal-percentage label, the user's
  pool share and deposited amounts, and the gating of the Approve and Remove buttons.
  It also models `onAttemptToApprove`. The main operation is `onRemove`, which:
  - checks its dependencies in a fixed order;
  - builds the router method list and argument list for the ETH and non-ETH cases;
  - probes a gas estimate for every candidate;
  - submits the first candidate whose estimate succeeded;
  - steps the modal's `attemptingTxn`/`txPending`/error/hash flags through submission
    and confirmation.
- **SyrupTimerLabel**. It splits the remaining seconds into days, hours, minutes and
  seconds using JavaScript's truncating `%`. It renders the padded countdown label,
  chooses between the countdown and "Rewards Ended", and keeps a once-a-second clock.
- **Header**. It sorts recent transactions newest first and splits them into pending
  and confirmed hash lists. It also covers the active-link test, the split of the
  mobile menu into a bar and an overflow, and the wallet area (account details,
  "Connect Wallet" or "Wrong Network").
- **TransactionsTable**. It covers the type filter, where `-1` means all, and the
  message key and symbols of each row. It also covers the column sort keys, the
  default order (time, newest first) and the pagination switch.
- **PairsTable**. It covers the tracked/untracked fallbacks for liquidity and volume,
  which differ between the desktop renderer (NaN-checked, default 0) and the mobile
  renderer. It also covers the column sort keys, where the 24h-fee column sorts by
  24h volume, the bookmark star and its toggle, and the defaults.
- **PoolPositionCard**. It covers the choice of staking program (regular before dual)
  and the guards around the APY-with-fees figure. It also covers the banner condition
  and the title.
- **CommonBases**. It covers the list of bases (native currency first), the guard on
  the native-currency click, the address-only selection test and the guard on the
  token click.

The modules are `Common` (JavaScript values, tokens, `filter`, `indexOf`), `JsText`
(number printing, `padStart`, `slice`), then one module per component. Feed fields that the
pairs table and the pool card test by truthiness or `isNaN` are `JsValue`s, judged as
JavaScript judges them. The transaction rows carry the typed fields they are read as.

SDK and utility functions whose definitions are not part of this model are function
parameters:
- `calculateSlippageAmount`, `calculateGasMargin` and `Pair.getLiquidityValue`;
- `Percent.toFixed`;
- `getOneYearFee`, `getAPYWithFee` and `formatAPY`;
- `isTransactionRecent`, `isSupportedNetwork` and `SUGGESTED_BASES`.

Chain interaction is input data:
- the gas estimate of a candidate is a function of the method and the arguments;
- the wallet's answer to the submission is a `SendOutcome`;
- the receipt wait's outcome is a `WaitOutcome`.

## Model

| member | source | states |
|---|---|---|
| Common.Filter | src/components/Header/Header.tsx:39-44 | `filter` keeps exactly the elements that pass the predicate, each as often as in the input, and keeps everything when every element passes |
| Common.FilterIsSubsequence | src/components/Header/Header.tsx:39-44 | the filtered list keeps the input's order |
| Common.FilterPartition | src/components/Header/Header.tsx:39-44 | filtering by a predicate and by its negation splits the input: the lengths and the multisets add up |
| Common.IndexOf | src/components/PairsTable/PairsTable.tsx:97-105 | `indexOf` gives -1 iff the element is absent, and otherwise the position of its first occurrence |
| JsText.NatToString | src/components/SyrupCard/SyrupTimerLabel.tsx:50-54 | a natural number prints as at least one digit, with no leading zero, and as one digit iff it is below ten |
| JsText.IntToString | src/components/SyrupCard/SyrupTimerLabel.tsx:50-54 | an integer prints as digits, preceded by '-' when negative |
| JsText.ParsePrintedNat | src/components/SyrupCard/SyrupTimerLabel.tsx:50-54 | reading the printed digits of a natural number gives the number back |
| JsText.TwoDigitsParse | src/components/SyrupCard/SyrupTimerLabel.tsx:50-54 | a number below one hundred, padded to two digits, reads back as itself |
| JsText.Slice | src/components/Header/Header.tsx:159-177 | `slice(start, end)` clamps the end to the length and gives the elements from `start` up to it, or nothing when the range is empty |
| JsText.SliceSplit | src/components/Header/Header.tsx:159-177 | `slice(0, k)` followed by `slice(k, length)` gives the whole list back |
| Header.Hashes | src/components/Header/Header.tsx:39-44 | mapping to hashes keeps the length and puts each transaction's hash at its position |
| RemoveLiquidity.LessThanOnePercent | src/components/RemoveLiquidityModal/RemoveLiquidityModal.tsx:131 | the SDK's cross-multiplied `lessThan(new Percent('1','100'))` holds exactly when the fraction's value is below 0.01 |
| RemoveLiquidity.PercentLabel | src/components/RemoveLiquidityModal/RemoveLiquidityModal.tsx:126-133 | the label is "0" for a zero percentage, "<1" for a non-zero one below one percent, and `toFixed(0)` otherwise, stated on the fraction's value |
| RemoveLiquidity.PoolShareAsWritten | src/components/RemoveLiquidityModal/RemoveLiquidityModal.tsx:119-124 | as written, a share is produced exactly when both balances are loaded and the total supply is at least the user's balance. The share is the user's balance over the total supply, so the numerator never exceeds the denominator |
| RemoveLiquidity.EmptyPoolPassesGuardAsWritten | src/components/RemoveLiquidityModal/RemoveLiquidityModal.tsx:119-124 | the guard as written accepts a zero balance in a zero-supply pool, so it builds the share 0/0 |
| RemoveLiquidity.PoolShare | src/components/RemoveLiquidityModal/RemoveLiquidityModal.tsx:119-124 | corrected: a share exists iff both balances are loaded, the pool is non-empty and the balance is at most the supply; it is balance/supply with value in [0, 1] |
| RemoveLiquidity.ShareGuardDiffersOnlyOnEmptyPool | src/components/RemoveLiquidityModal/RemoveLiquidityModal.tsx:119-124 | the corrected guard rejects, beyond the one as written, exactly the input where balance and supply are both zero |
| RemoveLiquidity.DepositedAsWritten | src/components/RemoveLiquidityModal/RemoveLiquidityModal.tsx:148-167 | as written, the deposited amounts exist iff the pair is loaded, both balances are loaded and the supply is at least the balance, an empty pool included; they are `getLiquidityValue` of token0 and token1 for (supply, balance) |
| RemoveLiquidity.Deposited | src/components/RemoveLiquidityModal/RemoveLiquidityModal.tsx:148-167 | corrected: the deposited amounts exist iff the pair is loaded and the corrected pool share exists; they are `getLiquidityValue` of token0 and token1 for (supply, balance) |
| RemoveLiquidity.DepositedDiffersOnlyOnEmptyPool | src/components/RemoveLiquidityModal/RemoveLiquidityModal.tsx:148-167 | where the corrected amounts exist they equal the ones as written; the written ones exist without the corrected ones exactly for a loaded pair with zero balance and zero supply |
| RemoveLiquidity.Buttons | src/components/RemoveLiquidityModal/RemoveLiquidityModal.tsx:504-523 | Approve is enabled iff not approving and approval is NOT_APPROVED; Remove iff no input error and APPROVED; never both |
| RemoveLiquidity.AttemptApprove | src/components/RemoveLiquidityModal/RemoveLiquidityModal.tsx:176-193 | approval is requested iff pair contract, pair, provider, deadline and liquidity amount are all present. A missing dependency shows "missing dependencies"; otherwise a missing amount shows "missing liquidity amount". A request raises `approving` first and leaves it lowered |
| RemoveLiquidity.ErrorMessagesIdentifyCheck | src/components/RemoveLiquidityModal/RemoveLiquidityModal.tsx:176-184 | each `onRemove` check throws its own text (lines 203-230 and 268-271), so the text names the failed check. The approve handler reports a missing dependency or a missing liquidity amount with the same text as `onRemove` |
| RemoveLiquidity.ApprovingBlocksApprove | src/components/RemoveLiquidityModal/RemoveLiquidityModal.tsx:186-192 | while a request is in flight the Approve button is disabled; after it settles, resolved or thrown alike, the button is enabled exactly when approval is still needed |
| RemoveLiquidity.DecodeEncode | src/components/RemoveLiquidityModal/RemoveLiquidityModal.tsx:235-267 | every router method tried for a request reads its positional argument list back as that request |
| RemoveLiquidity.BuildCall | src/components/RemoveLiquidityModal/RemoveLiquidityModal.tsx:202-272 | a call is built iff all dependencies, both amounts, the liquidity, both wrapped tokens and approval are present. Failures are reported in source order: missing dependencies, then missing currency amounts, missing liquidity amount, "could not wrap", and finally the missing-approval error. Non-ETH: the single `removeLiquidity` with tokenA, tokenB and both minimums in order. ETH: the two ETH methods, with the token and first minimum from the non-ETH side and the second minimum from the ETH side |
| RemoveLiquidity.FirstSuccess | src/components/RemoveLiquidityModal/RemoveLiquidityModal.tsx:285-287 | `findIndex`: the result is the first index holding a successful estimate, and none exactly when every estimate failed |
| RemoveLiquidity.SafeEstimates | src/components/RemoveLiquidityModal/RemoveLiquidityModal.tsx:274-283 | one entry per candidate, in order; an entry is present iff that candidate's estimate succeeded, and is then the margin-widened estimate |
| RemoveLiquidity.FirstSuccessSeesOnlySuccess | src/components/RemoveLiquidityModal/RemoveLiquidityModal.tsx:285-287 | `findIndex` over two estimate lists that succeed at the same positions gives the same index |
| RemoveLiquidity.MarginKeepsChoice | src/components/RemoveLiquidityModal/RemoveLiquidityModal.tsx:274-287 | widening the estimates by the gas margin never changes which candidate is chosen |
| RemoveLiquidity.SubmissionTrace | src/components/RemoveLiquidityModal/RemoveLiquidityModal.tsx:296-340 | attemptingTxn is set first and cleared by the end. On acceptance, txPending is set together with the hash at some point and cleared by the end. A rejection leaves txPending alone. The error message is unchanged in every state before the last, and the last differs only after a failed wait |
| RemoveLiquidity.OnRemove | src/components/RemoveLiquidityModal/RemoveLiquidityModal.tsx:202-342 | it throws iff not ready, with BuildCall's error. It fails silently iff every candidate's estimate fails. Otherwise it submits the first candidate whose estimate succeeded, with that candidate's widened estimate as gas limit and the shared arguments. Flags change only when something is submitted |
| RemoveLiquidity.RemoveEndsIdle | src/components/RemoveLiquidityModal/RemoveLiquidityModal.tsx:296-340 | from an idle modal, every run ends neither attempting nor pending. The error message is unchanged in every state before the last, and the last differs only for an accepted submission whose wait fails. No state is attempting and pending at once |
| SyrupTimer.JsRem | src/components/SyrupCard/SyrupTimerLabel.tsx:19-23 | JavaScript `%` is the remainder of division truncated toward zero: it takes the dividend's sign and is smaller than the divisor in magnitude |
| SyrupTimer.WholeUnits | src/components/SyrupCard/SyrupTimerLabel.tsx:19-23 | `(t - t % unit) / unit` is the quotient truncated toward zero, and divides exactly |
| SyrupTimer.Decompose | src/components/SyrupCard/SyrupTimerLabel.tsx:17-24 | days, hours, minutes and seconds recombine to exactly the remaining seconds |
| SyrupTimer.DecomposeBoundsAhead | src/components/SyrupCard/SyrupTimerLabel.tsx:17-24 | for time still to run, days are non-negative, hours are in [0, 24), and minutes and seconds are in [0, 60) |
| SyrupTimer.DecomposeBoundsPast | src/components/SyrupCard/SyrupTimerLabel.tsx:17-24 | past the end, every component is non-positive, hours are in (-24, 0] and minutes and seconds are in (-60, 0] |
| SyrupTimer.DecomposeMatchesDivision | src/components/SyrupCard/SyrupTimerLabel.tsx:17-24 | for time still to run, the components equal the ordinary quotient and remainders |
| SyrupTimer.DecomposeNegation | src/components/SyrupCard/SyrupTimerLabel.tsx:17-24 | t seconds overdue decompose into the negated components of t seconds to go |
| SyrupTimer.LabelAhead | src/components/SyrupCard/SyrupTimerLabel.tsx:50-54 | while time remains, hours and minutes print as exactly two digits and days and seconds as plain numbers |
| SyrupTimer.LabelShape | src/components/SyrupCard/SyrupTimerLabel.tsx:50-54 | for a non-negative countdown with hours and minutes below one hundred, the label is days, 'd ', two-digit hours, 'h ', two-digit minutes, 'm ', seconds and 's' |
| SyrupTimer.LabelReadsBack | src/components/SyrupCard/SyrupTimerLabel.tsx:50-54 | for such a countdown, reading the label's fields back at their positions gives the days, hours, minutes and seconds, and the label ends in 's' |
| SyrupTimer.View | src/components/SyrupCard/SyrupTimerLabel.tsx:39-60 | the countdown shows iff not ended and the end time is finite; "Rewards Ended" shows iff ended or not finite; the countdown text is the label of the decomposition |
| SyrupTimer.ExactlyOneBlock | src/components/SyrupCard/SyrupTimerLabel.tsx:39-60 | exactly one of the two blocks renders, and which one never depends on the clock |
| SyrupTimer.CurrentSeconds | src/components/SyrupCard/SyrupTimerLabel.tsx:9 | the clock reading is the whole number of seconds in the millisecond time |
| SyrupTimer.Tick | src/components/SyrupCard/SyrupTimerLabel.tsx:26-35 | an ended timer keeps its reading; otherwise a tick reads the clock in whole seconds |
| JsText.ParsePrintedInt | src/components/SyrupCard/SyrupTimerLabel.tsx:50-54 | printing an integer and reading it back gives the same integer |
| JsText.PadStart | src/components/SyrupCard/SyrupTimerLabel.tsx:50-54 | `padStart`: the result is at least the width long, ends with the string and is filled before it |
| JsText.TwoDigitPad | src/components/SyrupCard/SyrupTimerLabel.tsx:50-54 | a number below 100 padded to width 2 with '0' is its tens digit followed by its units digit |
| Header.NewTransactionsFirst | src/components/Header/Header.tsx:22-24 | the comparator is negative iff the first transaction was added later, and zero iff they were added at the same time |
| Header.ComparatorAntisymmetric | src/components/Header/Header.tsx:22-24 | swapping the arguments flips the comparator's sign |
| Header.SortNewestFirst | src/components/Header/Header.tsx:34-37 | the result is a permutation of the input, ordered by non-increasing added time |
| Header.SortedRecent | src/components/Header/Header.tsx:34-37 | the recent transactions, newest first: a permutation of the recent ones, holding exactly the transactions that are recent |
| Header.PendingConfirmedPartition | src/components/Header/Header.tsx:39-44 | pending and confirmed hashes split the sorted hashes: lengths add up, multisets add up, and each keeps the sorted order |
| Header.PendingConfirmedMembership | src/components/Header/Header.tsx:39-44 | a hash is pending iff some listed transaction with that hash has no receipt, and confirmed iff one has a receipt |
| Header.IndexOfFrom | src/components/Header/Header.tsx:130 | `indexOf` clamps the start to the string's length and finds the first occurrence at or after it, or -1 when there is none; an empty search string is found at the clamped start |
| Header.ActiveIffSubstring | src/components/Header/Header.tsx:129-131 | a link is active iff its path occurs somewhere in the current pathname |
| Header.MobileMenuCoversAll | src/components/Header/Header.tsx:159-177 | the mobile bar and the overflow menu together list every item once, in order; the bar holds at most four |
| Header.MobileMenuOfThisHeader | src/components/Header/Header.tsx:48-79 | with this header's six items, the first four are in the bar and Convert and Analytics overflow |
| Header.Wallet | src/components/Header/Header.tsx:208-232 | account details show iff an account is connected and there is no provider or it is on a supported network; otherwise the button says "Wrong Network" in error style exactly when a provider is on an unsupported network |
| Header.ConnectClickMatchesLabel | src/components/Header/Header.tsx:224-232 | the connect button opens the wallet modal exactly when it says "Connect Wallet" |
| TransactionsTable.FilterRows | src/components/TransactionsTable/TransactionsTable.tsx:259-261 | filter -1 keeps every row; any other value keeps exactly the rows of that type, in their original order, each as many times as it occurs in the data |
| TransactionsTable.TypeFiltersSplitData | src/components/TransactionsTable/TransactionsTable.tsx:259-261 | when every row is a swap, add or remove, the three type filters together hold every row exactly once |
| TransactionsTable.FilterIdempotent | src/components/TransactionsTable/TransactionsTable.tsx:259-261 | filtering again by the same type changes nothing |
| TransactionsTable.InitialFilterShowsAll | src/components/TransactionsTable/TransactionsTable.tsx:90 | the filter starts at -1, so a fresh table shows every row |
| TransactionsTable.GetTxString | src/components/TransactionsTable/TransactionsTable.tsx:96-109 | swaps, adds and removes get the message of their own type; other types get the empty string; token0Symbol comes from the pair's token1 and token1Symbol from its token0 |
| TransactionsTable.MessageKeysDistinguishTypes | src/components/TransactionsTable/TransactionsTable.tsx:96-109 | two rows share a message key iff they have the same type |
| TransactionsTable.SortKey | src/components/TransactionsTable/TransactionsTable.tsx:17-87 | the description column cannot be sorted; value, the two amounts (amount1 then amount0) and the transaction id sort by their own fields |
| TransactionsTable.DefaultOrderIsNewestFirst | src/components/TransactionsTable/TransactionsTable.tsx:81-86 | the default column (head cell 5) is Time; its key is no larger for a row exactly when that row's timestamp is no earlier, so ascending keys list later transactions first |
| TransactionsTable.Table | src/components/TransactionsTable/TransactionsTable.tsx:254-261 | pagination shows iff the unfiltered data exceed ten rows; the rows shown are the filtered ones; ten rows per page, ordered by time |
| TransactionsTable.PaginationFollowsUnfilteredData | src/components/TransactionsTable/TransactionsTable.tsx:254-261 | without pagination all shown rows fit on one page; eleven swaps under the "add" filter turn pagination on over no rows |
| TransactionsTable.TableOpensNewestFirst | src/components/TransactionsTable/TransactionsTable.tsx:81-86 | the table's default column has a sort key for every row, and that key puts later transactions first |
| PairsTable.TrackedOr | src/components/PairsTable/PairsTable.tsx:78-86 | the tracked figure when it is truthy and the fallback when it is not; the result is truthy iff either is |
| PairsTable.DesktopVolume | src/components/PairsTable/PairsTable.tsx:163-174 | the desktop volume is never NaN, undefined or null: it is the tracked figure if usable, else the untracked one if usable, else 0 |
| PairsTable.DesktopAndMobileVolume | src/components/PairsTable/PairsTable.tsx:81-86 | the two renderers agree whenever the chosen figure is a usable number; with both figures missing, mobile shows undefined and desktop shows 0 |
| PairsTable.NonNumericTrackedVolume | src/components/PairsTable/PairsTable.tsx:163-168 | a truthy non-numeric tracked figure is shown on mobile but skipped on desktop |
| PairsTable.PairSortKey | src/components/PairsTable/PairsTable.tsx:16-54 | name sorts by "SYM0 SYM1"; liquidity by the tracked-or-raw reserve; day volume and day fees both by the tracked-or-untracked 24h volume; week volume likewise |
| PairsTable.FeeColumnSortsLikeDayVolume | src/components/PairsTable/PairsTable.tsx:46-53 | the 24h-fee column has the same sort key as the 24h-volume column |
| PairsTable.BookmarkClick | src/components/PairsTable/PairsTable.tsx:96-103 | a click adds the pair iff it is not bookmarked and removes it iff it is |
| PairsTable.StarMatchesClick | src/components/PairsTable/PairsTable.tsx:97-109 | the star is filled iff the pair is bookmarked, exactly when a click would remove it |
| PairsTable.Table | src/components/PairsTable/PairsTable.tsx:232-242 | the table opens by liquidity, descending, and pages iff the data exceed the page size |
| PairsTable.TableOpensByLiquidity | src/components/PairsTable/PairsTable.tsx:232-242 | the default column sorts each pair by its tracked reserve, or its raw reserve when the tracked one is falsy; without pagination every pair fits on one page |
| PoolPositionCard.SelectStakingInfo | src/components/PoolPositionCard/PoolPositionCard.tsx:27-35 | the first regular staking program if any, else the first dual one if any, else none |
| PoolPositionCard.RegularProgramWins | src/components/PoolPositionCard/PoolPositionCard.tsx:27-35 | with a regular program present the dual programs are never consulted, and an empty regular list counts as a missing one |
| PoolPositionCard.Inputs | src/components/PoolPositionCard/PoolPositionCard.tsx:47-57 | inputs exist iff the program and the pair data are known. The monthly return defaults to 0. The fee formula receives the pair's day volume and reserve exactly when both are truthy |
| PoolPositionCard.NoZeroReserveReachesFee | src/components/PoolPositionCard/PoolPositionCard.tsx:49-52 | a numeric zero reserve never reaches the fee formula, and neither does a pair missing from the data |
| PoolPositionCard.StringZeroReserveReachesFee | src/components/PoolPositionCard/PoolPositionCard.tsx:49-52 | the guard tests truthiness: a reserve the feed sends as the string "0" is truthy and is passed to the fee formula |
| PoolPositionCard.ApyWithFee | src/components/PoolPositionCard/PoolPositionCard.tsx:47-57 | defined iff the program and the pair data are known; the formatted APY of the monthly return and the one-year fee, which is 0 when the fee formula is skipped |
| PoolPositionCard.BannerNeedsLiveProgramAndData | src/components/PoolPositionCard/PoolPositionCard.tsx:96 | the APY banner shows only for a live program once the pair data are known |
| PoolPositionCard.Title | src/components/PoolPositionCard/PoolPositionCard.tsx:80-82 | the title is "Loading" iff a currency is unknown; otherwise it is "SYM0/SYM1", with a missing symbol printed as "undefined" |
| PoolPositionCard.TitleOfNativePair | src/components/PoolPositionCard/PoolPositionCard.tsx:80-82 | the native currency prints as MATIC beside a token's symbol, and a token without a symbol prints as "undefined" |
| CommonBases.BaseList | src/components/CurrencySearchModal/CommonBases.tsx:27-38 | the native currency comes first. It is followed by the chain's suggested tokens in order, or by nothing when the chain id is missing or zero |
| CommonBases.NativeOfferedOnce | src/components/CurrencySearchModal/CommonBases.tsx:27-38 | the native currency appears only at the head of the list; every later base is a token |
| CommonBases.NativeClick | src/components/CurrencySearchModal/CommonBases.tsx:29-33 | the native currency is selected by a click iff nothing is selected or the selection is not the native currency |
| CommonBases.TokenClick | src/components/CurrencySearchModal/CommonBases.tsx:40-47 | a token base is selected by a click iff the selection is not a token with the same address |
| CommonBases.ClicksAreIdempotent | src/components/CurrencySearchModal/CommonBases.tsx:29-47 | a second click on the base just selected does not call `onSelect` again |
| CommonBases.SelectionIgnoresChainId | src/components/CurrencySearchModal/CommonBases.tsx:40-42 | a token with the selected token's address counts as selected even on another chain |

## Left out

- Rendering is not modelled: JSX layout, styles, icons, media queries, links and the expand/collapse state are outside the model.
- Chain and network I/O appears only through its outcomes. This covers `estimateGas`, the router call, `response.wait`, `getBulkPairData`, and the approval callback.
- Side effects with no bearing on the state modelled are left out. These are `ReactGA.event`, `console.error`, `addTransaction`/`finalizedTransaction`, and the transaction summary string.
- Display formatting through floating point is left out. This covers `toLocaleString`, `toSignificant`, `toExact`, the fee figure `volume * FEEPERCENT`, and `Number(...)` conversions of feed strings.
- SDK and utility functions are parameters, so nothing is proved about their own behaviour. These are `calculateSlippageAmount`, `calculateGasMargin`, `getLiquidityValue`, `Percent.toFixed`, `getOneYearFee`, `getAPYWithFee`, `formatAPY`, `isTransactionRecent`, `isSupportedNetwork` and `SUGGESTED_BASES`.
- The native currency's symbol is assumed to be "MATIC" (`Common.NATIVE_SYMBOL`), the text CommonBases.tsx hardcodes beside `ETHER`. The SDK's `ETHER.symbol` is not part of this model.
- The numeric values of `TxnType` are assumed to be SWAP = 0, ADD = 1, REMOVE = 2. `constants/index` is not part of this model.
- The pairs table's page size (`GlobalConst.utils.ROWSPERPAGE`) is a parameter, since `constants/index` is not part of this model.
- The removal flow's rest is left out: the slider and typed-input handling (`useDerivedBurnInfo`, the debounced slider), the confirmation modal and the dismiss handler.
- The Approve button's text ("Approving...", "Approved", "Approve") is display only and is not modelled; its enabled state is.
- The `onSelect` callbacks and the bookmark store are not modelled. The model only says which call is made.
- `CurrencyInput.tsx` and `SyrupAPR.tsx` are not part of this model. Neither is the shared table component (`CustomTable`), so its own sort direction and paging are not modelled.
- SyrupTimer.View: the end time is a whole number of seconds or a non-finite value. A fractional `exactEnd` is not modelled.
- Header.SortNewestFirst: the result is a newest-first permutation. That it keeps ties in their original order, as the engine's stable sort does, is not stated.
- RemoveLiquidity.SubmissionTrace: on a rejected submission, txPending is stated to be unchanged rather than cleared. The source does not touch it on that path.
- PoolPositionCard.NoZeroReserveReachesFee: only a numeric zero reserve is kept from the fee formula. A string "0" from the feed is truthy and reaches it (`StringZeroReserveReachesFee`); what `getOneYearFee` does with it is SDK code that is not part of this model.
- PairsTable.DesktopVolume: `isNaN` on a string is modelled by a flag on the value saying whether the string reads as a number. JavaScript's string-to-number conversion is not modelled.
- The percentage, deposited and APY figures are exact rationals or parameters. Rounding of the SDK's decimal output is not modelled.

## Findings

| source | as written | input that shows it | evidently intended | confidence | as-written member | corrected member |
|---|---|---|---|---|---|---|
| src/components/RemoveLiquidityModal/RemoveLiquidityModal.tsx:119-124 | the pool-share guard, and the same guard before the deposited amounts (lines 148-152), accept `totalPoolTokens >= userPoolBalance` with no check that the supply is positive | user balance 0 in a pool whose total supply is 0: the guard passes and builds `new Percent(0, 0)` and calls `getLiquidityValue` on an empty pool | the share and the deposited amounts exist only for a non-empty pool | low, not executed | RemoveLiquidity.PoolShareAsWritten and RemoveLiquidity.DepositedAsWritten (witness RemoveLiquidity.EmptyPoolPassesGuardAsWritten) | RemoveLiquidity.PoolShare and RemoveLiquidity.Deposited (difference: RemoveLiquidity.DepositedDiffersOnlyOnEmptyPool) |

Two behaviours of the code are modelled as written, although a reader might expect
otherwise. First, an end time in the past shows a negative countdown: "Rewards Ended"
appears only with the ended flag or a non-finite end time. Second, the percentage
label compares the fraction exactly, by cross-multiplication, with no rounding first.

The finding's confidence is low for a practical reason. A Uniswap V2 pair locks a
minimum liquidity when it is first funded, so a zero total supply arises only for a
pair token that has never been funded.

=== FILE: common.dfy ===
/** Shared vocabulary of the interface model: optional and error-carrying
    values, the JavaScript notions of truthiness the components branch on,
    the SDK's currencies, and the array helpers (`filter`, `indexOf`) the
    components call. */
module Common {

  /** A value that may be absent (`undefined`/`null` in the source). */
  datatype Option<T> = None | Some(value: T) {
    /** The `??` operator: the value, or `default` when absent. */
    function GetOr(default: T): T {
      match this
      case Some(v) => v
      case None => default
    }
  }

  /** The outcome of an operation that may throw. */
  datatype Result<T, E> = Ok(value: T) | Err(error: E)

  /** A value read from an untyped data feed (an `any` field). Whether a
      string converts to a number is carried with it, since JavaScript's
      string-to-number conversion is not part of this model. */
  datatype JsValue =
    | Undefined
    | Null
    | NaN
    | Num(n: real)
    | Text(s: string, isNumeric: bool)

  /** JavaScript truthiness: `undefined`, `null`, `NaN`, `0` and `""` are falsy. */
  predicate Truthy(v: JsValue) {
    match v
    case Undefined => false
    case Null => false
    case NaN => false
    case Num(n) => n != 0.0
    case Text(s, _) => s != ""
  }

  /** The global `isNaN`, which first converts its argument to a number:
      `undefined` converts to NaN, `null` to 0. */
  predicate IsNaN(v: JsValue) {
    match v
    case Undefined => true
    case Null => false
    case NaN => true
    case Num(_) => false
    case Text(_, numeric) => !numeric
  }

  /** An ERC-20 token as the SDK describes it. Equality of tokens in the SDK
      compares chain id and address only. */
  datatype Token = Token(chainId: nat, address: string, decimals: nat, symbol: Option<string>)

  /** A currency is the chain's native currency (the SDK's `ETHER`, shown as
      MATIC on Polygon) or a token. */
  datatype Currency = Ether | AsToken(token: Token)

  /** The symbol the user interface shows for the native currency. */
  const NATIVE_SYMBOL: string := "MATIC"

  function Symbol(c: Currency): Option<string> {
    match c
    case Ether => Some(NATIVE_SYMBOL)
    case AsToken(t) => t.symbol
  }

  /** `Array.prototype.filter`: the elements satisfying `p`, in order. */
  function Filter<T>(s: seq<T>, p: T -> bool): (r: seq<T>)
    ensures |r| <= |s|
    ensures forall i :: 0 <= i < |r| ==> p(r[i])
    ensures forall x :: x in r ==> x in s
    ensures forall x :: x in s && p(x) ==> x in r
    ensures (forall i :: 0 <= i < |s| ==> p(s[i])) ==> r == s
    ensures forall x :: x in s ==> multiset(r)[x] == if p(x) then multiset(s)[x] else 0
  {
    if |s| == 0 then []
    else
      assert s == [s[0]] + s[1..];
      if p(s[0]) then [s[0]] + Filter(s[1..], p)
      else Filter(s[1..], p)
  }

  /** `a` is `b` with some elements deleted: the order of `a` is the order
      it has in `b`. */
  predicate IsSubsequence<T(==)>(a: seq<T>, b: seq<T>)
    decreases |b|
  {
    if |a| == 0 then true
    else if |b| == 0 then false
    else (a[0] == b[0] && IsSubsequence(a[1..], b[1..])) || IsSubsequence(a, b[1..])
  }

  /** Filtering keeps the relative order of the kept elements. */
  lemma {:induction false} FilterIsSubsequence<T>(s: seq<T>, p: T -> bool)
    ensures IsSubsequence(Filter(s, p), s)
    decreases |s|
  {
    if |s| > 0 {
      FilterIsSubsequence(s[1..], p);
      var rest := Filter(s[1..], p);
      if p(s[0]) {
        assert Filter(s, p) == [s[0]] + rest;
        assert ([s[0]] + rest)[1..] == rest;
      } else {
        assert Filter(s, p) == rest;
        if |rest| > 0 {
          assert IsSubsequence(rest, s[1..]);
        }
      }
    }
  }

  /** Filtering by a predicate and by its complement splits the sequence:
      every element lands in exactly one part. */
  lemma {:induction false} FilterPartition<T>(s: seq<T>, p: T -> bool, q: T -> bool)
    requires forall x :: q(x) == !p(x)
    ensures |Filter(s, p)| + |Filter(s, q)| == |s|
    ensures multiset(Filter(s, p)) + multiset(Filter(s, q)) == multiset(s)
    decreases |s|
  {
    if |s| > 0 {
      FilterPartition(s[1..], p, q);
      assert s == [s[0]] + s[1..];
    }
  }

  /** `Array.prototype.indexOf`: the first position of `x`, or -1. */
  function IndexOf<T(==)>(s: seq<T>, x: T): (r: int)
    ensures -1 <= r < |s|
    ensures r == -1 <==> x !in s
    ensures 0 <= r ==> s[r] == x && x !in s[..r]
  {
    if |s| == 0 then -1
    else if s[0] == x then 0
    else
      var k := IndexOf(s[1..], x);
      if k == -1 then -1
      else
        assert s[..k + 1] == [s[0]] + s[1..][..k];
        k + 1
  }
}

=== FILE: common_bases.dfy ===
/** The common-bases strip of the currency search modal: the native
    currency first, then the suggested bases of the current chain, and the
    click guards that keep a click on the current selection from
    reselecting it. The suggested-bases table is a parameter (its contents
    are not part of this model). */
module CommonBases {
  import opened Common

  /** The bases offered: the native currency, then the chain's suggested
      tokens, or the native currency alone when the chain id is missing or
      falsy (zero). */
  function BaseList(chainId: Option<nat>, suggestedBases: nat -> seq<Token>): (r: seq<Currency>)
    ensures |r| >= 1 && r[0] == Ether
    ensures chainId.None? || chainId.value == 0 ==> r == [Ether]
    ensures chainId.Some? && chainId.value != 0 ==> |r| == 1 + |suggestedBases(chainId.value)|
    ensures chainId.Some? && chainId.value != 0 ==> forall i :: 0 <= i < |suggestedBases(chainId.value)| ==>
      r[i + 1] == AsToken(suggestedBases(chainId.value)[i])
  {
    var tokens := if chainId.Some? && chainId.value != 0 then suggestedBases(chainId.value) else [];
    [Ether] + seq(|tokens|, i requires 0 <= i < |tokens| => AsToken(tokens[i]))
  }

  /** The native currency is offered once, at the head: every later base is
      a token. */
  lemma NativeOfferedOnce(chainId: Option<nat>, suggestedBases: nat -> seq<Token>)
    ensures var r := BaseList(chainId, suggestedBases);
      Ether !in r[1..] && forall i :: 1 <= i < |r| ==> r[i].AsToken?
  {
  }

  /** The SDK's `currencyEquals(selected, ETHER)`: only the native currency
      itself equals the native currency. */
  predicate IsNative(c: Currency) {
    c.Ether?
  }

  /** Clicking the native currency calls `onSelect(ETHER)` unless it is
      already selected; the result is the currency passed to `onSelect`. */
  function NativeClick(selected: Option<Currency>): (r: Option<Currency>)
    ensures r.Some? <==> selected.None? || !IsNative(selected.value)
    ensures r.Some? ==> r.value == Ether
  {
    if selected.None? || !IsNative(selected.value) then Some(Ether) else None
  }

  /** A token base is marked selected when the selection is a token with the
      same address; the chain id is not compared. */
  predicate TokenSelected(selected: Option<Currency>, t: Token) {
    selected.Some? && selected.value.AsToken? && selected.value.token.address == t.address
  }

  /** Clicking a token base calls `onSelect(token)` unless it is selected. */
  function TokenClick(selected: Option<Currency>, t: Token): (r: Option<Currency>)
    ensures r.Some? <==> !TokenSelected(selected, t)
    ensures r.Some? ==> r.value == AsToken(t)
  {
    if TokenSelected(selected, t) then None else Some(AsToken(t))
  }

  /** The selection after a click: what `onSelect` received, or the old
      selection when it was not called. */
  function AfterClick(selected: Option<Currency>, call: Option<Currency>): Option<Currency> {
    if call.Some? then call else selected
  }

  /** A second click on the same base never calls `onSelect` again. */
  lemma ClicksAreIdempotent(selected: Option<Currency>, t: Token)
    ensures NativeClick(AfterClick(selected, NativeClick(selected))).None?
    ensures TokenClick(AfterClick(selected, TokenClick(selected, t)), t).None?
  {
  }

  /** A token with the same address on another chain counts as selected. */
  lemma SelectionIgnoresChainId(t: Token, chainId: nat)
    ensures TokenSelected(Some(AsToken(t)), t.(chainId := chainId))
    ensures TokenClick(Some(AsToken(t)), t.(chainId := chainId)).None?
  {
  }
}

=== FILE: header.dfy ===
/** The header's decision logic: recent transactions newest first and split
    into pending and confirmed hashes for the wallet modal, the active menu
    link, the mobile menu split, and the connect-wallet button. Whether a
    transaction is recent and whether the injected provider is on a
    supported network are inputs (their definitions are not part of this
    model). */
module Header {
  import opened Common
  import JsText

  datatype Receipt = Receipt(blockNumber: nat, status: nat)

  datatype TransactionDetails = TransactionDetails(hash: string, addedTime: int, receipt: Option<Receipt>)

  /** `newTransactionsFirst(a, b) = b.addedTime - a.addedTime`: negative
      exactly when `a` was added later, so `sort` puts it first. */
  function NewTransactionsFirst(a: TransactionDetails, b: TransactionDetails): (r: int)
    ensures r < 0 <==> a.addedTime > b.addedTime
    ensures r == 0 <==> a.addedTime == b.addedTime
  {
    b.addedTime - a.addedTime
  }

  /** Swapping the arguments flips the comparator's sign, as `sort` requires
      of a consistent comparator. */
  lemma ComparatorAntisymmetric(a: TransactionDetails, b: TransactionDetails)
    ensures NewTransactionsFirst(a, b) == -NewTransactionsFirst(b, a)
  {
  }

  predicate NewestFirst(s: seq<TransactionDetails>) {
    forall i, j :: 0 <= i < j < |s| ==> s[i].addedTime >= s[j].addedTime
  }

  /** Places `t` after every element the comparator does not put behind it,
      as a stable sort does for an element that comes later in its input. */
  function Insert(t: TransactionDetails, s: seq<TransactionDetails>): (r: seq<TransactionDetails>)
    requires NewestFirst(s)
    ensures NewestFirst(r)
    ensures multiset(r) == multiset(s) + multiset{t}
    ensures r[0] == t || (|s| > 0 && r[0] == s[0])
  {
    if |s| == 0 then [t]
    else if NewTransactionsFirst(s[0], t) <= 0 then
      var rest := Insert(t, s[1..]);
      assert s == [s[0]] + s[1..];
      HeadBeforeSorted(s[0], rest);
      [s[0]] + rest
    else
      [t] + s
  }

  /** An element no later than the head of a newest-first list can go in
      front of it. */
  lemma HeadBeforeSorted(x: TransactionDetails, s: seq<TransactionDetails>)
    requires NewestFirst(s)
    requires |s| > 0 ==> x.addedTime >= s[0].addedTime
    ensures NewestFirst([x] + s)
  {
  }

  /** `Array.prototype.sort(newTransactionsFirst)`, as a stable insertion sort. */
  function SortNewestFirst(s: seq<TransactionDetails>): (r: seq<TransactionDetails>)
    ensures NewestFirst(r)
    ensures multiset(r) == multiset(s)
  {
    if |s| == 0 then []
    else
      assert s == s[..|s| - 1] + [s[|s| - 1]];
      Insert(s[|s| - 1], SortNewestFirst(s[..|s| - 1]))
  }

  /** `sortedRecentTransactions`: the transactions `isRecent` accepts, each
      exactly as often as it occurs, newest first. */
  function SortedRecent(all: seq<TransactionDetails>, isRecent: TransactionDetails -> bool): (r: seq<TransactionDetails>)
    ensures NewestFirst(r)
    ensures multiset(r) == multiset(Filter(all, isRecent))
    ensures forall t :: t in r <==> t in all && isRecent(t)
  {
    var recent := Filter(all, isRecent);
    var r := SortNewestFirst(recent);
    assert forall t :: t in r <==> t in multiset(r);
    r
  }

  predicate IsPending(t: TransactionDetails) {
    t.receipt.None?
  }

  predicate IsConfirmed(t: TransactionDetails) {
    t.receipt.Some?
  }

  function Hashes(s: seq<TransactionDetails>): (r: seq<string>)
    ensures |r| == |s|
    ensures forall i :: 0 <= i < |s| ==> r[i] == s[i].hash
  {
    if |s| == 0 then [] else [s[0].hash] + Hashes(s[1..])
  }

  /** Hashes of the transactions still waiting for a receipt, in order. */
  function Pending(sorted: seq<TransactionDetails>): seq<string> {
    Hashes(Filter(sorted, IsPending))
  }

  /** Hashes of the transactions with a receipt, in order. */
  function Confirmed(sorted: seq<TransactionDetails>): seq<string> {
    Hashes(Filter(sorted, IsConfirmed))
  }

  lemma {:induction false} HashesKeepOrder(a: seq<TransactionDetails>, b: seq<TransactionDetails>)
    requires IsSubsequence(a, b)
    ensures IsSubsequence(Hashes(a), Hashes(b))
    decreases |b|
  {
    if |a| > 0 {
      assert |b| > 0;
      if a[0] == b[0] && IsSubsequence(a[1..], b[1..]) {
        HashesKeepOrder(a[1..], b[1..]);
        assert Hashes(a)[1..] == Hashes(a[1..]);
        assert Hashes(b)[1..] == Hashes(b[1..]);
      } else {
        HashesKeepOrder(a, b[1..]);
        assert Hashes(b)[1..] == Hashes(b[1..]);
      }
    }
  }

  lemma HashesCons(x: TransactionDetails, s: seq<TransactionDetails>)
    ensures Hashes([x] + s) == [x.hash] + Hashes(s)
  {
    assert ([x] + s)[1..] == s;
  }

  lemma {:induction false} PartitionMultiset(sorted: seq<TransactionDetails>)
    ensures multiset(Pending(sorted)) + multiset(Confirmed(sorted)) == multiset(Hashes(sorted))
    decreases |sorted|
  {
    if |sorted| > 0 {
      var x := sorted[0];
      var rest := sorted[1..];
      PartitionMultiset(rest);
      HashesCons(x, rest);
      assert sorted == [x] + rest;
      if IsPending(x) {
        assert Filter(sorted, IsPending) == [x] + Filter(rest, IsPending);
        HashesCons(x, Filter(rest, IsPending));
      } else {
        assert Filter(sorted, IsConfirmed) == [x] + Filter(rest, IsConfirmed);
        HashesCons(x, Filter(rest, IsConfirmed));
      }
    }
  }

  /** The pending and confirmed lists split the recent hashes between them:
      every recent transaction's hash lands in exactly one list, decided by
      its receipt, and each list keeps the newest-first order. */
  lemma PendingConfirmedPartition(sorted: seq<TransactionDetails>)
    ensures |Pending(sorted)| + |Confirmed(sorted)| == |sorted|
    ensures multiset(Pending(sorted)) + multiset(Confirmed(sorted)) == multiset(Hashes(sorted))
    ensures IsSubsequence(Pending(sorted), Hashes(sorted))
    ensures IsSubsequence(Confirmed(sorted), Hashes(sorted))
  {
    FilterPartition(sorted, IsPending, IsConfirmed);
    PartitionMultiset(sorted);
    FilterIsSubsequence(sorted, IsPending);
    FilterIsSubsequence(sorted, IsConfirmed);
    HashesKeepOrder(Filter(sorted, IsPending), sorted);
    HashesKeepOrder(Filter(sorted, IsConfirmed), sorted);
  }

  /** A hash is listed as pending exactly when some recent transaction with
      that hash has no receipt, and as confirmed exactly when one has. */
  lemma PendingConfirmedMembership(sorted: seq<TransactionDetails>, h: string)
    ensures h in Pending(sorted) <==> exists t :: t in sorted && t.hash == h && t.receipt.None?
    ensures h in Confirmed(sorted) <==> exists t :: t in sorted && t.hash == h && t.receipt.Some?
  {
    PendingMembership(sorted, h);
    ConfirmedMembership(sorted, h);
  }

  lemma PendingMembership(sorted: seq<TransactionDetails>, h: string)
    ensures h in Pending(sorted) <==> exists t :: t in sorted && t.hash == h && t.receipt.None?
  {
    var p := Filter(sorted, IsPending);
    if h in Pending(sorted) {
      var i :| 0 <= i < |p| && Pending(sorted)[i] == h;
      assert p[i] in sorted;
    }
    if exists t :: t in sorted && t.hash == h && t.receipt.None? {
      var t :| t in sorted && t.hash == h && t.receipt.None?;
      var i :| 0 <= i < |p| && p[i] == t;
      assert Pending(sorted)[i] == h;
    }
  }

  lemma ConfirmedMembership(sorted: seq<TransactionDetails>, h: string)
    ensures h in Confirmed(sorted) <==> exists t :: t in sorted && t.hash == h && t.receipt.Some?
  {
    var c := Filter(sorted, IsConfirmed);
    if h in Confirmed(sorted) {
      var i :| 0 <= i < |c| && Confirmed(sorted)[i] == h;
      assert c[i] in sorted;
    }
    if exists t :: t in sorted && t.hash == h && t.receipt.Some? {
      var t :| t in sorted && t.hash == h && t.receipt.Some?;
      var i :| 0 <= i < |c| && c[i] == t;
      assert Confirmed(sorted)[i] == h;
    }
  }

  /** `sub` occurs in `s` starting at position `i`. */
  predicate OccursAt(s: string, sub: string, i: int) {
    0 <= i && i + |sub| <= |s| && s[i..i + |sub|] == sub
  }

  /** The first position at or after `from` where `sub` occurs, or -1. */
  function SearchFrom(s: string, sub: string, from: nat): (r: int)
    ensures r == -1 || (from <= r && OccursAt(s, sub, r))
    ensures r == -1 ==> forall j :: from <= j ==> !OccursAt(s, sub, j)
    ensures r != -1 ==> forall j :: from <= j < r ==> !OccursAt(s, sub, j)
    decreases |s| - from
  {
    if from + |sub| > |s| then -1
    else if s[from..from + |sub|] == sub then from
    else SearchFrom(s, sub, from + 1)
  }

  /** `s.indexOf(sub, from)`: the search starts at `from` clamped to the
      length of `s`, so an empty `sub` is found at that start even past the
      end, and a non-empty one never occurs there. */
  function IndexOfFrom(s: string, sub: string, from: nat): (r: int)
    ensures var start := if from < |s| then from else |s|;
      && (r == -1 || (start <= r && OccursAt(s, sub, r)))
      && (r == -1 ==> forall j :: start <= j ==> !OccursAt(s, sub, j))
      && (r != -1 ==> forall j :: start <= j < r ==> !OccursAt(s, sub, j))
    ensures |sub| == 0 ==> r == if from < |s| then from else |s|
  {
    SearchFrom(s, sub, if from < |s| then from else |s|)
  }

  /** A menu link is styled active when `pathname.indexOf(link) > -1`. */
  predicate IsActive(pathname: string, link: string) {
    IndexOfFrom(pathname, link, 0) > -1
  }

  /** A link is active exactly when it occurs somewhere in the path. */
  lemma ActiveIffSubstring(pathname: string, link: string)
    ensures IsActive(pathname, link) <==> exists i :: OccursAt(pathname, link, i)
  {
    if IsActive(pathname, link) {
      assert OccursAt(pathname, link, IndexOfFrom(pathname, link, 0));
    }
  }

  datatype MenuItem = MenuItem(link: string, text: string, id: string)

  const MENU_ITEMS: seq<MenuItem> := [
    MenuItem("/swap", "Swap", "swap-page-link"),
    MenuItem("/pools", "Pool", "pools-page-link"),
    MenuItem("/farm", "Farm", "farm-page-link"),
    MenuItem("/dragons", "Dragon’s Lair", "dragons-page-link"),
    MenuItem("/convert", "Convert", "convert-quick"),
    MenuItem("/analytics", "Analytics", "analytics-page-link")
  ]

  /** On small screens `menuItems.slice(0, 4)` fill the bar ... */
  function MobileBar(items: seq<MenuItem>): seq<MenuItem> {
    JsText.Slice(items, 0, 4)
  }

  /** ... and `menuItems.slice(4, menuItems.length)` the overflow list. */
  function MobileOverflow(items: seq<MenuItem>): seq<MenuItem> {
    JsText.Slice(items, 4, |items|)
  }

  /** The bar and the overflow list together show every item once, in
      order, whatever the number of items; the bar holds at most four. */
  lemma MobileMenuCoversAll(items: seq<MenuItem>)
    ensures MobileBar(items) + MobileOverflow(items) == items
    ensures |MobileBar(items)| <= 4
  {
    JsText.SliceSplit(items, 4);
  }

  lemma MobileMenuOfThisHeader()
    ensures MobileBar(MENU_ITEMS) == MENU_ITEMS[..4]
    ensures MobileOverflow(MENU_ITEMS) == [MENU_ITEMS[4], MENU_ITEMS[5]]
  {
  }

  datatype WalletArea =
    | AccountDetails
    | ConnectButton(caption: string, errorStyle: bool, clickTogglesModal: bool)

  const WRONG_NETWORK: string := "Wrong Network"
  const CONNECT_WALLET: string := "Connect Wallet"

  /** The account area: the account details when an account is connected
      and there is no injected provider or it is on a supported network;
      otherwise the connect button, which says "Wrong Network" (in the
      error style) for a provider on an unsupported network and opens the
      wallet modal only when it does not. */
  function Wallet(account: Option<string>, hasProvider: bool, supportedNetwork: bool): (w: WalletArea)
    ensures w.AccountDetails? <==> (account.Some? && account.value != "" && (!hasProvider || supportedNetwork))
    ensures w.ConnectButton? ==>
      && (w.caption == WRONG_NETWORK <==> hasProvider && !supportedNetwork)
      && (w.clickTogglesModal <==> !hasProvider || supportedNetwork)
      && w.errorStyle == (w.caption == WRONG_NETWORK)
  {
    var wrongNetwork := hasProvider && !supportedNetwork;
    if account.Some? && account.value != "" && !wrongNetwork then AccountDetails
    else ConnectButton(if wrongNetwork then WRONG_NETWORK else CONNECT_WALLET, wrongNetwork, !wrongNetwork)
  }

  /** A click on the connect button does nothing exactly when it says
      "Wrong Network". */
  lemma ConnectClickMatchesLabel(account: Option<string>, hasProvider: bool, supportedNetwork: bool)
    requires Wallet(account, hasProvider, supportedNetwork).ConnectButton?
    ensures var w := Wallet(account, hasProvider, supportedNetwork);
      w.clickTogglesModal <==> w.caption == CONNECT_WALLET
  {
  }
}

=== FILE: jstext.dfy ===
/** The JavaScript string and array primitives the components use for
    display: `Number.prototype.toString()` on integers, `String.prototype.padStart`
    and `Array.prototype.slice` with non-negative bounds. */
module JsText {

  predicate IsDigit(c: char) {
    '0' <= c <= '9'
  }

  function DigitChar(d: nat): (c: char)
    requires d < 10
    ensures IsDigit(c)
  {
    "0123456789"[d]
  }

  function DigitValue(c: char): (d: nat)
    requires IsDigit(c)
    ensures d < 10 && DigitChar(d) == c
  {
    (c as int - '0' as int) as nat
  }

  /** Decimal digits of `n`, most significant first, with no leading zero. */
  function NatToString(n: nat): (r: string)
    ensures |r| >= 1
    ensures AllDigits(r)
    ensures n < 10 <==> |r| == 1
    ensures n >= 10 ==> r[0] != '0'
  {
    if n < 10 then [DigitChar(n)]
    else NatToString(n / 10) + [DigitChar(n % 10)]
  }

  /** Reads a string of decimal digits back as a number. */
  function ParseDigits(s: string): nat
    requires AllDigits(s)
  {
    if |s| == 0 then 0
    else 10 * ParseDigits(s[..|s| - 1]) + DigitValue(s[|s| - 1])
  }

  /** Printing a natural number loses nothing: reading it back gives it. */
  lemma {:induction false} ParsePrintedNat(n: nat)
    ensures ParseDigits(NatToString(n)) == n
  {
    var r := NatToString(n);
    if n >= 10 {
      ParsePrintedNat(n / 10);
      assert r[..|r| - 1] == NatToString(n / 10);
    }
  }

  predicate AllDigits(s: string) {
    forall i :: 0 <= i < |s| ==> IsDigit(s[i])
  }

  /** `String(i)` for an integer: a minus sign before the magnitude when negative. */
  function IntToString(i: int): (r: string)
    ensures i < 0 ==> |r| > 1 && r[0] == '-' && AllDigits(r[1..])
    ensures i >= 0 ==> AllDigits(r)
  {
    if i < 0 then "-" + NatToString(-i) else NatToString(i)
  }

  /** Reads the output of `IntToString` back. */
  function ParseInt(s: string): int
    requires |s| > 0
    requires if s[0] == '-' then AllDigits(s[1..]) else AllDigits(s)
  {
    if s[0] == '-' then 0 - ParseDigits(s[1..]) else ParseDigits(s)
  }

  /** Printing an integer loses nothing, whatever its sign. */
  lemma ParsePrintedInt(i: int)
    ensures |IntToString(i)| > 0
    ensures ParseInt(IntToString(i)) == i
  {
    if i < 0 {
      ParsePrintedNegative(i);
    } else {
      ParsePrintedNonNegative(i);
    }
  }

  lemma ParsePrintedNegative(i: int)
    requires i < 0
    ensures |IntToString(i)| > 0
    ensures ParseInt(IntToString(i)) == i
  {
    var digits := NatToString(-i);
    var r := "-" + digits;
    assert r == IntToString(i);
    assert r[1..] == digits;
    ParsePrintedNat(-i);
  }

  lemma ParsePrintedNonNegative(i: int)
    requires i >= 0
    ensures |IntToString(i)| > 0
    ensures ParseInt(IntToString(i)) == i
  {
    var r := NatToString(i);
    assert IsDigit(r[0]);
    ParsePrintedNat(i);
  }

  function Repeat(c: char, n: nat): (r: string)
    ensures |r| == n
    ensures forall i :: 0 <= i < n ==> r[i] == c
  {
    if n == 0 then [] else [c] + Repeat(c, n - 1)
  }

  /** `s.padStart(width, fill)` with a one-character fill: `s` preceded by
      as many fill characters as it lacks to reach `width`. */
  function PadStart(s: string, width: nat, fill: char): (r: string)
    ensures |r| == if |s| >= width then |s| else width
    ensures r[|r| - |s|..] == s
    ensures forall i :: 0 <= i < |r| - |s| ==> r[i] == fill
  {
    if |s| >= width then s else Repeat(fill, width - |s|) + s
  }

  /** A number below 100 padded to width 2 with '0' is its tens digit then
      its units digit. */
  lemma TwoDigitPad(n: nat)
    requires n < 100
    ensures PadStart(NatToString(n), 2, '0') == [DigitChar(n / 10), DigitChar(n % 10)]
  {
    if n >= 10 {
      assert NatToString(n / 10) == [DigitChar(n / 10)];
    }
  }

  /** Two digit characters read back as the number they print. */
  lemma TwoDigitsParse(n: nat)
    requires n < 100
    ensures AllDigits([DigitChar(n / 10), DigitChar(n % 10)])
    ensures ParseDigits([DigitChar(n / 10), DigitChar(n % 10)]) == n
  {
    var a, b := DigitChar(n / 10), DigitChar(n % 10);
    var s := [a, b];
    assert s[..|s| - 1] == [a] && s[|s| - 1] == b;
    assert [a][..0] == [];
    assert ParseDigits([a]) == DigitValue(a);
    assert ParseDigits(s) == 10 * ParseDigits([a]) + DigitValue(b);
    DigitRoundTrip(n / 10);
    DigitRoundTrip(n % 10);
  }

  /** A digit character reads back as the digit it prints. */
  lemma DigitRoundTrip(d: nat)
    requires d < 10
    ensures DigitValue(DigitChar(d)) == d
  {
    assert "0123456789"[d] as int == '0' as int + d by {
      if d == 0 {} else if d == 1 {} else if d == 2 {} else if d == 3 {} else if d == 4 {}
      else if d == 5 {} else if d == 6 {} else if d == 7 {} else if d == 8 {} else {}
    }
  }

  function Min(a: int, b: int): int {
    if a <= b then a else b
  }

  /** `s.slice(start, end)` for non-negative bounds: bounds past the end are
      clamped to the length, and an empty slice results when start >= end. */
  function Slice<T>(s: seq<T>, start: nat, end: nat): (r: seq<T>)
    ensures |r| == if Min(end, |s|) <= start then 0 else Min(end, |s|) - start
    ensures forall i :: 0 <= i < |r| ==> r[i] == s[start + i]
  {
    var e := Min(end, |s|);
    var b := Min(start, e);
    s[b..e]
  }

  /** Slicing at any split point and concatenating gives back the original. */
  lemma SliceSplit<T>(s: seq<T>, k: nat)
    ensures Slice(s, 0, k) + Slice(s, k, |s|) == s
  {
    if k <= |s| {
      assert s[..k] + s[k..] == s;
    }
  }
}

=== FILE: pairs_table.dfy ===
/** The pairs table: how liquidity and volume fall back from tracked to
    untracked figures (differently in the desktop and mobile renderers),
    the bookmark star and its toggle, the column sort keys and the table's
    defaults. Feed fields are untyped values, judged by JavaScript
    truthiness. */
module PairsTable {
  import opened Common

  datatype PairRow = PairRow(
    id: string,
    token0Symbol: string,
    token1Symbol: string,
    trackedReserveUSD: JsValue,
    reserveUSD: JsValue,
    oneDayVolumeUSD: JsValue,
    oneDayVolumeUntracked: JsValue,
    oneWeekVolumeUSD: JsValue,
    oneWeekVolumeUntracked: JsValue)

  /** `tracked ? tracked : fallback`. */
  function TrackedOr(tracked: JsValue, fallback: JsValue): (r: JsValue)
    ensures Truthy(r) <==> Truthy(tracked) || Truthy(fallback)
    ensures r == tracked || r == fallback
    ensures Truthy(tracked) ==> r == tracked
    ensures !Truthy(tracked) ==> r == fallback
  {
    if Truthy(tracked) then tracked else fallback
  }

  /** Liquidity, in the sort key and in both renderers: the tracked reserve
      when truthy, else the raw reserve. */
  function Liquidity(p: PairRow): JsValue {
    TrackedOr(p.trackedReserveUSD, p.reserveUSD)
  }

  /** A figure the desktop renderer accepts: `x && !isNaN(x)`. */
  predicate Usable(v: JsValue) {
    Truthy(v) && !IsNaN(v)
  }

  /** The desktop volume: the tracked figure if usable, else the untracked
      one if usable, else 0. It is never NaN, undefined or null. */
  function DesktopVolume(tracked: JsValue, untracked: JsValue): (r: JsValue)
    ensures !IsNaN(r) && !r.Undefined? && !r.Null?
    ensures Usable(tracked) ==> r == tracked
    ensures !Usable(tracked) && Usable(untracked) ==> r == untracked
    ensures !Usable(tracked) && !Usable(untracked) ==> r == Num(0.0)
  {
    if Usable(tracked) then tracked
    else if Usable(untracked) then untracked
    else Num(0.0)
  }

  /** The mobile volume: the tracked figure if truthy, else the untracked
      one as it is, with no NaN check and no default. */
  function MobileVolume(tracked: JsValue, untracked: JsValue): JsValue {
    TrackedOr(tracked, untracked)
  }

  /** The two renderers agree whenever the figure they pick is usable, and
      the mobile one alone can show a missing figure. */
  lemma DesktopAndMobileVolume(tracked: JsValue, untracked: JsValue)
    ensures Usable(tracked) ==> DesktopVolume(tracked, untracked) == MobileVolume(tracked, untracked)
    ensures !Truthy(tracked) && Usable(untracked) ==>
      DesktopVolume(tracked, untracked) == MobileVolume(tracked, untracked)
    ensures MobileVolume(Undefined, Undefined) == Undefined
    ensures DesktopVolume(Undefined, Undefined) == Num(0.0)
  {
  }

  /** A truthy figure that is not a number is skipped on desktop but shown
      on mobile. */
  lemma NonNumericTrackedVolume(untracked: JsValue)
    ensures MobileVolume(Text("n/a", false), untracked) == Text("n/a", false)
    ensures DesktopVolume(Text("n/a", false), untracked) != Text("n/a", false)
  {
  }

  function DayVolumeMobile(p: PairRow): JsValue {
    MobileVolume(p.oneDayVolumeUSD, p.oneDayVolumeUntracked)
  }

  function WeekVolumeMobile(p: PairRow): JsValue {
    MobileVolume(p.oneWeekVolumeUSD, p.oneWeekVolumeUntracked)
  }

  datatype PairColumn = PairName | PairLiquidity | DayVolume | WeekVolume | DayFee

  const PAIR_HEAD_CELLS: seq<PairColumn> := [PairName, PairLiquidity, DayVolume, WeekVolume, DayFee]

  const LIQUIDITY_HEAD_CELL_INDEX: nat := 1

  datatype SortValue = NameKey(s: string) | FigureKey(v: JsValue)

  /** The sort key of each column. The volume columns use the mobile
      fallback (no NaN check), and the 24h fee column sorts by the 24h
      volume. */
  function PairSortKey(c: PairColumn, p: PairRow): (k: SortValue)
    ensures c == PairName ==> k == NameKey(p.token0Symbol + " " + p.token1Symbol)
    ensures c == PairLiquidity ==> k == FigureKey(Liquidity(p))
    ensures c == DayVolume || c == DayFee ==> k == FigureKey(DayVolumeMobile(p))
    ensures c == WeekVolume ==> k == FigureKey(WeekVolumeMobile(p))
  {
    match c
    case PairName => NameKey(p.token0Symbol + " " + p.token1Symbol)
    case PairLiquidity => FigureKey(Liquidity(p))
    case DayVolume => FigureKey(DayVolumeMobile(p))
    case WeekVolume => FigureKey(WeekVolumeMobile(p))
    case DayFee => FigureKey(DayVolumeMobile(p))
  }

  /** Rows tie on the fee column exactly when they tie on the 24h volume
      column, so both columns order rows alike. */
  lemma FeeColumnSortsLikeDayVolume(p: PairRow)
    ensures PairSortKey(DayFee, p) == PairSortKey(DayVolume, p)
  {
  }

  /** The star is filled when `bookmarkPairs.indexOf(pair.id) > -1`. */
  predicate StarChecked(bookmarks: seq<string>, id: string) {
    IndexOf(bookmarks, id) > -1
  }

  datatype BookmarkAction = AddBookmark(addId: string) | RemoveBookmark(removeId: string)

  /** The star's click handler: add when `indexOf` finds nothing, remove
      otherwise. */
  function BookmarkClick(bookmarks: seq<string>, id: string): (a: BookmarkAction)
    ensures a.AddBookmark? <==> id !in bookmarks
    ensures a.RemoveBookmark? <==> id in bookmarks
    ensures a == AddBookmark(id) || a == RemoveBookmark(id)
  {
    if IndexOf(bookmarks, id) == -1 then AddBookmark(id) else RemoveBookmark(id)
  }

  /** A filled star removes the bookmark and an empty one adds it. */
  lemma StarMatchesClick(bookmarks: seq<string>, id: string)
    ensures StarChecked(bookmarks, id) <==> id in bookmarks
    ensures StarChecked(bookmarks, id) <==> BookmarkClick(bookmarks, id).RemoveBookmark?
  {
  }

  datatype Order = Asc | Desc

  datatype TableView = TableView(defaultOrderBy: PairColumn, defaultOrder: Order, showPagination: bool, rowsPerPage: nat)

  /** The table opens by liquidity, largest first, and pages only when the
      data exceed one page. `rowsPerPage` is the application-wide page size. */
  function Table(data: seq<PairRow>, rowsPerPage: nat): (v: TableView)
    ensures v.defaultOrderBy == PairLiquidity && v.defaultOrder == Desc
    ensures v.showPagination <==> |data| > rowsPerPage
    ensures v.rowsPerPage == rowsPerPage
  {
    TableView(PAIR_HEAD_CELLS[LIQUIDITY_HEAD_CELL_INDEX], Desc, |data| > rowsPerPage, rowsPerPage)
  }

  /** The table opens sorted on each pair's liquidity figure (tracked
      reserve, else raw reserve), and without pagination every pair fits on
      the one page. */
  lemma TableOpensByLiquidity(data: seq<PairRow>, rowsPerPage: nat, p: PairRow)
    ensures var v := Table(data, rowsPerPage);
      PairSortKey(v.defaultOrderBy, p) == FigureKey(TrackedOr(p.trackedReserveUSD, p.reserveUSD))
      && (!v.showPagination ==> |data| <= v.rowsPerPage)
  {
  }
}

=== FILE: pool_position_card.dfy ===
/** The pool position card: which staking program it advertises, the
    guards around the APY-with-fees figure, when the APY banner shows, and
    the card title. The fee and APY formulas (`getOneYearFee`,
    `getAPYWithFee`, `formatAPY`) are function parameters; their
    definitions are not part of this model. */
module PoolPositionCard {
  import opened Common

  datatype StakingInfo = StakingInfo(pair: string, ended: bool, perMonthReturnInRewards: Option<real>)

  /** The first regular staking program if there is one, else the first
      dual-reward program if there is one, else none. */
  function SelectStakingInfo(regular: Option<seq<StakingInfo>>, dual: Option<seq<StakingInfo>>): (r: Option<StakingInfo>)
    ensures regular.Some? && |regular.value| > 0 ==> r == Some(regular.value[0])
    ensures !(regular.Some? && |regular.value| > 0) && dual.Some? && |dual.value| > 0 ==> r == Some(dual.value[0])
    ensures r.None? <==> (regular.None? || |regular.value| == 0) && (dual.None? || |dual.value| == 0)
  {
    if regular.Some? && |regular.value| > 0 then Some(regular.value[0])
    else if dual.Some? && |dual.value| > 0 then Some(dual.value[0])
    else None
  }

  /** A regular program always wins: the dual-reward programs are not
      consulted, and an empty regular list counts the same as a missing one. */
  lemma RegularProgramWins(regular: seq<StakingInfo>, dual1: Option<seq<StakingInfo>>, dual2: Option<seq<StakingInfo>>)
    ensures |regular| > 0 ==> SelectStakingInfo(Some(regular), dual1) == SelectStakingInfo(Some(regular), dual2)
    ensures |regular| == 0 ==> SelectStakingInfo(Some(regular), dual1) == SelectStakingInfo(None, dual1)
  {
  }

  datatype PairData = PairData(oneDayVolumeUSD: JsValue, reserveUSD: JsValue)

  /** What the APY computation passes on: the monthly reward return
      (missing counts as 0) and, when both figures are truthy, the day
      volume and reserve handed to `getOneYearFee`. */
  datatype ApyInputs = ApyInputs(monthlyReturn: real, feeArguments: Option<(JsValue, JsValue)>)

  /** `bulkPairData[stakingInfo.pair]?.field`: undefined for a pair the data
      does not list. */
  function Lookup(bulk: map<string, PairData>, pair: string): (JsValue, JsValue) {
    if pair in bulk then (bulk[pair].oneDayVolumeUSD, bulk[pair].reserveUSD) else (Undefined, Undefined)
  }

  /** The guarded inputs of `apyWithFee`: nothing before both the staking
      program and the pair data are known. A falsy reserve (zero, missing
      or NaN) never reaches the fee formula. */
  function Inputs(info: Option<StakingInfo>, bulk: Option<map<string, PairData>>): (r: Option<ApyInputs>)
    ensures r.Some? <==> info.Some? && bulk.Some?
    ensures r.Some? && r.value.feeArguments.Some? ==>
      Truthy(r.value.feeArguments.value.0) && Truthy(r.value.feeArguments.value.1)
    ensures r.Some? ==> r.value.monthlyReturn == info.value.perMonthReturnInRewards.GetOr(0.0)
    ensures r.Some? && r.value.feeArguments.Some? ==> r.value.feeArguments.value == Lookup(bulk.value, info.value.pair)
    ensures r.Some? && r.value.feeArguments.None? ==>
      !Truthy(Lookup(bulk.value, info.value.pair).0) || !Truthy(Lookup(bulk.value, info.value.pair).1)
  {
    if info.Some? && bulk.Some? then
      var (dayVolume, reserveUSD) := Lookup(bulk.value, info.value.pair);
      var fee := if Truthy(dayVolume) && Truthy(reserveUSD) then Some((dayVolume, reserveUSD)) else None;
      Some(ApyInputs(info.value.perMonthReturnInRewards.GetOr(0.0), fee))
    else None
  }

  /** A reserve that is a plain number reaches the fee formula only when it
      is not zero, and a pair missing from the data never does. */
  lemma NoZeroReserveReachesFee(info: StakingInfo, bulk: map<string, PairData>)
    ensures var r := Inputs(Some(info), Some(bulk)).value;
      r.feeArguments.Some? && r.feeArguments.value.1.Num? ==> r.feeArguments.value.1.n != 0.0
    ensures info.pair !in bulk ==> Inputs(Some(info), Some(bulk)).value.feeArguments.None?
  {
  }

  /** The guard tests truthiness, not the number: a reserve the feed sends
      as the string "0" is truthy and does reach the fee formula. */
  lemma StringZeroReserveReachesFee(info: StakingInfo)
    ensures var bulk := map[info.pair := PairData(Num(5.0), Text("0", true))];
      Inputs(Some(info), Some(bulk)).value.feeArguments == Some((Num(5.0), Text("0", true)))
  {
    var bulk := map[info.pair := PairData(Num(5.0), Text("0", true))];
    assert Lookup(bulk, info.pair) == (Num(5.0), Text("0", true));
  }

  /** `apyWithFee`: `formatAPY(getAPYWithFee(monthlyReturn, oneYearFee))`,
      with the one-year fee 0 when the fee formula is skipped. */
  function ApyWithFee(info: Option<StakingInfo>, bulk: Option<map<string, PairData>>,
                      oneYearFee: (JsValue, JsValue) -> real, apyWithFee: (real, real) -> real,
                      formatApy: real -> string): (r: Option<string>)
    ensures r.Some? <==> info.Some? && bulk.Some?
    ensures r.Some? ==>
      var inp := Inputs(info, bulk).value;
      r.value == formatApy(apyWithFee(inp.monthlyReturn,
        match inp.feeArguments
        case None => 0.0
        case Some(args) => oneYearFee(args.0, args.1)))
  {
    match Inputs(info, bulk)
    case None => None
    case Some(inp) =>
      var fee := match inp.feeArguments
        case None => 0.0
        case Some(args) => oneYearFee(args.0, args.1);
      Some(formatApy(apyWithFee(inp.monthlyReturn, fee)))
  }

  /** The "Earn ...% APY" banner: a live staking program and a non-empty
      APY figure. */
  predicate ShowsBanner(info: Option<StakingInfo>, apy: Option<string>) {
    info.Some? && !info.value.ended && apy.Some? && apy.value != ""
  }

  /** The banner never shows before the pair data arrive, nor for an ended
      program. */
  lemma BannerNeedsLiveProgramAndData(info: Option<StakingInfo>, bulk: Option<map<string, PairData>>,
                                      oneYearFee: (JsValue, JsValue) -> real, apyWithFee: (real, real) -> real,
                                      formatApy: real -> string)
    ensures ShowsBanner(info, ApyWithFee(info, bulk, oneYearFee, apyWithFee, formatApy)) ==>
      info.Some? && !info.value.ended && bulk.Some?
  {
  }

  /** `${value}` inside a template literal: an undefined symbol prints as "undefined". */
  function Interpolate(o: Option<string>): string {
    o.GetOr("undefined")
  }

  /** The card title: "Loading" until both currencies are known, then
      "SYM0/SYM1". */
  function Title(c0: Option<Currency>, c1: Option<Currency>): (t: string)
    ensures t == "Loading" <==> c0.None? || c1.None?
    ensures c0.Some? && c1.Some? ==>
      t == Interpolate(Symbol(c0.value)) + "/" + Interpolate(Symbol(c1.value))
  {
    if c0.None? || c1.None? then "Loading"
    else
      var first := Interpolate(Symbol(c0.value));
      var t := first + "/" + Interpolate(Symbol(c1.value));
      assert t[|first|] == '/' && '/' !in "Loading";
      t
  }

  /** A pair of the native currency and a token shows both symbols, the
      native one as MATIC; a token without a symbol shows "undefined". */
  lemma TitleOfNativePair(t: Token)
    ensures t.symbol == Some("USDC") ==> Title(Some(Ether), Some(AsToken(t))) == "MATIC/USDC"
    ensures t.symbol.None? ==> Title(Some(AsToken(t)), Some(Ether)) == "undefined/MATIC"
  {
  }
}

=== FILE: remove_liquidity.dfy ===
/** The decision logic of the remove-liquidity modal: the withdrawal
    percentage label, the pool-share and deposited-amount guards, the
    approve and remove button gating, and `onRemove`, which checks its
    dependencies and approval, builds the router call for the ETH and
    non-ETH cases, probes every candidate method's gas estimate, submits
    the first candidate (in list order) whose estimate succeeded, and steps
    the modal's flags through submission and confirmation.

    Chain calls are inputs here: the gas estimate of a candidate is a
    function of the method and arguments, and the submission and receipt
    outcomes are values. SDK arithmetic whose definition is not part of
    this model (`calculateSlippageAmount`, `calculateGasMargin`,
    `Pair.getLiquidityValue`, `Percent.toFixed`) is a function parameter. */
module RemoveLiquidity {
  import opened Common

  datatype ApprovalState = Unknown | NotApproved | Pending | Approved

  type Positive = n: int | n > 0 witness 1

  /** The SDK's exact rational (and `Percent`, which is a fraction shown
      multiplied by 100). */
  datatype Fraction = Fraction(num: int, den: Positive)

  function Value(f: Fraction): real {
    f.num as real / f.den as real
  }

  /** `Fraction.equalTo` and `Fraction.lessThan`: comparison by cross-multiplication. */
  predicate FracEqual(a: Fraction, b: Fraction) {
    a.num * b.den == b.num * a.den
  }

  predicate FracLess(a: Fraction, b: Fraction) {
    a.num * b.den < b.num * a.den
  }

  const ZERO_PERCENT: Fraction := Fraction(0, 1)
  const ONE_PERCENT: Fraction := Fraction(1, 100)

  lemma LessThanOnePercent(p: Fraction)
    ensures FracLess(p, ONE_PERCENT) <==> Value(p) < 0.01
  {
    var v := Value(p);
    assert v * p.den as real == p.num as real;
    if FracLess(p, ONE_PERCENT) {
      assert 100.0 * p.num as real < p.den as real;
      assert 100.0 * v * p.den as real < p.den as real;
    } else {
      assert 100.0 * p.num as real >= p.den as real;
      assert 100.0 * v * p.den as real >= p.den as real;
    }
  }

  /** The percentage shown beside the slider: "0" for nothing, "<1" for a
      positive share below one percent, otherwise the percentage rounded to
      a whole number by `Percent.toFixed(0)`. */
  function PercentLabel(p: Fraction, toFixed0: Fraction -> string): (r: string)
    ensures Value(p) == 0.0 ==> r == "0"
    ensures Value(p) != 0.0 && Value(p) < 0.01 ==> r == "<1"
    ensures Value(p) >= 0.01 ==> r == toFixed0(p)
  {
    LessThanOnePercent(p);
    if FracEqual(p, ZERO_PERCENT) then "0"
    else if FracLess(p, ONE_PERCENT) then "<1"
    else toFixed0(p)
  }

  /** The guard as the component writes it: both balances loaded and the
      total supply at least the user's balance. */
  predicate ShareGuardAsWritten(userBalance: Option<nat>, totalSupply: Option<nat>) {
    userBalance.Some? && totalSupply.Some? && totalSupply.value >= userBalance.value
  }

  /** `new Percent(userBalance, totalSupply)` behind the guard as written,
      as a bare numerator/denominator pair since the guard does not keep
      the denominator positive. */
  function PoolShareAsWritten(userBalance: Option<nat>, totalSupply: Option<nat>): (r: Option<(nat, nat)>)
    ensures r.Some? <==> ShareGuardAsWritten(userBalance, totalSupply)
    ensures r.Some? ==> r.value == (userBalance.value, totalSupply.value)
    ensures r.Some? ==> r.value.0 <= r.value.1
  {
    if ShareGuardAsWritten(userBalance, totalSupply) then Some((userBalance.value, totalSupply.value))
    else None
  }

  /** An empty pool passes the guard as written: a zero balance against a
      zero total supply yields the share 0/0. */
  lemma EmptyPoolPassesGuardAsWritten()
    ensures ShareGuardAsWritten(Some(0), Some(0))
    ensures PoolShareAsWritten(Some(0), Some(0)) == Some((0, 0))
  {
  }

  /** The guard with the empty pool excluded. */
  predicate ShareGuard(userBalance: Option<nat>, totalSupply: Option<nat>) {
    ShareGuardAsWritten(userBalance, totalSupply) && totalSupply.value > 0
  }

  /** The user's share of the pool, defined only when both balances are
      loaded and the user holds no more than the whole supply of a
      non-empty pool; it is then a proper fraction. */
  function PoolShare(userBalance: Option<nat>, totalSupply: Option<nat>): (r: Option<Fraction>)
    ensures r.Some? <==> (userBalance.Some? && totalSupply.Some?
                          && 0 < totalSupply.value && userBalance.value <= totalSupply.value)
    ensures r.Some? ==> r.value.num == userBalance.value && r.value.den == totalSupply.value
    ensures r.Some? ==> 0.0 <= Value(r.value) <= 1.0
  {
    if ShareGuard(userBalance, totalSupply) then
      var f := Fraction(userBalance.value, totalSupply.value);
      assert Value(f) * f.den as real == f.num as real;
      Some(f)
    else None
  }

  /** The corrected guard differs from the one as written on exactly the
      empty pool. */
  lemma ShareGuardDiffersOnlyOnEmptyPool(userBalance: Option<nat>, totalSupply: Option<nat>)
    ensures ShareGuardAsWritten(userBalance, totalSupply) && !ShareGuard(userBalance, totalSupply)
      <==> userBalance == Some(0) && totalSupply == Some(0)
  {
  }

  datatype PoolSide = Token0 | Token1

  /** The deposited amounts behind the guard as the component writes it:
      `getLiquidityValue` is called even for a zero balance in an empty pool. */
  function DepositedAsWritten(hasPair: bool, userBalance: Option<nat>, totalSupply: Option<nat>,
                              liquidityValue: (PoolSide, nat, nat) -> nat): (r: Option<(nat, nat)>)
    ensures r.Some? <==> hasPair && PoolShareAsWritten(userBalance, totalSupply).Some?
    ensures r.Some? ==> r.value == (liquidityValue(Token0, totalSupply.value, userBalance.value),
                                    liquidityValue(Token1, totalSupply.value, userBalance.value))
  {
    if hasPair && ShareGuardAsWritten(userBalance, totalSupply) then
      Some((liquidityValue(Token0, totalSupply.value, userBalance.value),
            liquidityValue(Token1, totalSupply.value, userBalance.value)))
    else None
  }

  /** The amounts of each pool token the user's liquidity is worth,
      computed by `getLiquidityValue(side, totalSupply, userBalance)` only
      behind the same guard as the pool share, with the empty pool
      excluded. */
  function Deposited(hasPair: bool, userBalance: Option<nat>, totalSupply: Option<nat>,
                     liquidityValue: (PoolSide, nat, nat) -> nat): (r: Option<(nat, nat)>)
    ensures r.Some? <==> hasPair && PoolShare(userBalance, totalSupply).Some?
    ensures r.Some? ==> r.value == (liquidityValue(Token0, totalSupply.value, userBalance.value),
                                    liquidityValue(Token1, totalSupply.value, userBalance.value))
  {
    if hasPair && ShareGuard(userBalance, totalSupply) then
      Some((liquidityValue(Token0, totalSupply.value, userBalance.value),
            liquidityValue(Token1, totalSupply.value, userBalance.value)))
    else None
  }

  /** The corrected deposited amounts agree with the ones as written
      wherever they exist, and are missing where the written ones exist
      exactly for a loaded pair with zero balance and zero supply. */
  lemma DepositedDiffersOnlyOnEmptyPool(hasPair: bool, userBalance: Option<nat>, totalSupply: Option<nat>,
                                        liquidityValue: (PoolSide, nat, nat) -> nat)
    ensures Deposited(hasPair, userBalance, totalSupply, liquidityValue).Some? ==>
      DepositedAsWritten(hasPair, userBalance, totalSupply, liquidityValue)
        == Deposited(hasPair, userBalance, totalSupply, liquidityValue)
    ensures DepositedAsWritten(hasPair, userBalance, totalSupply, liquidityValue).Some?
            && Deposited(hasPair, userBalance, totalSupply, liquidityValue).None?
      <==> hasPair && userBalance == Some(0) && totalSupply == Some(0)
  {
    ShareGuardDiffersOnlyOnEmptyPool(userBalance, totalSupply);
  }

  /** The Approve button is clickable only while approval is needed and no
      approval is in flight; the Remove button only once approved and with
      no input error. */
  function Buttons(approving: bool, approval: ApprovalState, hasInputError: bool): (r: (bool, bool))
    ensures r.0 <==> !approving && approval == NotApproved
    ensures r.1 <==> !hasInputError && approval == Approved
    ensures !(r.0 && r.1)
  {
    (!approving && approval == NotApproved, !hasInputError && approval == Approved)
  }

  /** How the wallet's approval callback settled. */
  datatype ApprovalSettled = ApprovalResolved | ApprovalThrew

  /** A click on Approve: either an error message and no request, or a
      request together with the values the `approving` flag takes, in order. */
  datatype ApproveAttempt = ApproveRefused(message: string) | ApproveRequested(approving: seq<bool>)

  /** `onAttemptToApprove`: a missing pair contract, pair, provider or
      deadline is reported first, then a missing liquidity amount; with
      everything present the request is made, `approving` is raised for its
      duration and lowered however the callback settles. */
  function AttemptApprove(hasPairContract: bool, hasPair: bool, hasLibrary: bool, hasDeadline: bool,
                          liquidity: Option<nat>, settled: ApprovalSettled): (r: ApproveAttempt)
    ensures r.ApproveRequested? <==> hasPairContract && hasPair && hasLibrary && hasDeadline && liquidity.Some?
    ensures !(hasPairContract && hasPair && hasLibrary && hasDeadline) ==>
      r == ApproveRefused("missing dependencies")
    ensures hasPairContract && hasPair && hasLibrary && hasDeadline && liquidity.None? ==>
      r == ApproveRefused("missing liquidity amount")
    ensures r.ApproveRequested? ==>
      |r.approving| >= 2 && r.approving[0] && !r.approving[|r.approving| - 1]
  {
    if !hasPairContract || !hasPair || !hasLibrary || !hasDeadline then ApproveRefused(ErrorMessage(MissingDependencies))
    else if liquidity.None? then ApproveRefused(ErrorMessage(MissingLiquidityAmount))
    else
      match settled
      case ApprovalResolved => ApproveRequested([true, false])
      case ApprovalThrew => ApproveRequested([true, false])
  }

  /** While a request is in flight the Approve button is disabled, so a
      second click cannot start another; once it settles, either way, the
      button is enabled again exactly when approval is still needed. */
  lemma ApprovingBlocksApprove(hasPairContract: bool, hasPair: bool, hasLibrary: bool, hasDeadline: bool,
                               liquidity: Option<nat>, settled: ApprovalSettled,
                               approval: ApprovalState, hasInputError: bool)
    ensures var r := AttemptApprove(hasPairContract, hasPair, hasLibrary, hasDeadline, liquidity, settled);
      r.ApproveRequested? ==>
        && !Buttons(r.approving[0], approval, hasInputError).0
        && (Buttons(r.approving[|r.approving| - 1], approval, hasInputError).0 <==> approval == NotApproved)
    ensures AttemptApprove(hasPairContract, hasPair, hasLibrary, hasDeadline, liquidity, ApprovalResolved)
         == AttemptApprove(hasPairContract, hasPair, hasLibrary, hasDeadline, liquidity, ApprovalThrew)
  {
  }

  /** What `onRemove` reads from the component. A chain id of 0 and an
      empty account string are falsy and count as missing. */
  datatype RemoveInputs = RemoveInputs(
    chainId: Option<nat>,
    hasLibrary: bool,
    account: Option<string>,
    deadline: Option<nat>,
    hasRouter: bool,
    currency0: Currency,
    currency1: Currency,
    amountA: Option<nat>,
    amountB: Option<nat>,
    liquidity: Option<nat>,
    tokenA: Option<Token>,
    tokenB: Option<Token>,
    approval: ApprovalState)

  datatype RemoveError =
    | MissingDependencies
    | MissingCurrencyAmounts
    | MissingLiquidityAmount
    | CouldNotWrap
    | RemoveWithoutApproval

  function ErrorMessage(e: RemoveError): string {
    match e
    case MissingDependencies => "missing dependencies"
    case MissingCurrencyAmounts => "missing currency amounts"
    case MissingLiquidityAmount => "missing liquidity amount"
    case CouldNotWrap => "could not wrap"
    case RemoveWithoutApproval => "Attempting to confirm without approval. Please contact support."
  }

  /** Each failed check of `onRemove` throws its own text, so the message
      names the check that failed; and the approve handler reports a missing
      dependency or liquidity amount with the same text as `onRemove`. */
  lemma ErrorMessagesIdentifyCheck(e1: RemoveError, e2: RemoveError, hasLibrary: bool, hasDeadline: bool,
                                   settled: ApprovalSettled)
    ensures ErrorMessage(e1) == ErrorMessage(e2) <==> e1 == e2
    ensures AttemptApprove(false, true, hasLibrary, hasDeadline, Some(1), settled)
         == ApproveRefused(ErrorMessage(MissingDependencies))
    ensures AttemptApprove(true, true, true, true, None, settled)
         == ApproveRefused(ErrorMessage(MissingLiquidityAmount))
  {
  }

  predicate DependenciesPresent(inp: RemoveInputs) {
    && inp.chainId.Some? && inp.chainId.value != 0
    && inp.hasLibrary
    && inp.account.Some? && inp.account.value != ""
    && inp.deadline.Some?
    && inp.hasRouter
  }

  /** Everything `onRemove` checks before it asks for any gas estimate. */
  predicate ReadyToRemove(inp: RemoveInputs) {
    && DependenciesPresent(inp)
    && inp.amountA.Some? && inp.amountB.Some?
    && inp.liquidity.Some?
    && inp.tokenA.Some? && inp.tokenB.Some?
    && inp.approval == Approved
  }

  datatype RouterMethod =
    | RemoveLiquidityMethod
    | RemoveLiquidityETH
    | RemoveLiquidityETHSupportingFeeOnTransferTokens

  /** A router argument: an address, an integer sent as a decimal string, or
      an integer sent as a hex string (the deadline). */
  datatype Arg = AddressArg(address: string) | DecimalArg(n: nat) | HexArg(h: nat)

  /** The parameters of the router's two removal functions, by name:
      `removeLiquidity(tokenA, tokenB, liquidity, amountAMin, amountBMin, to, deadline)`
      and `removeLiquidityETH…(token, liquidity, amountTokenMin, amountETHMin, to, deadline)`. */
  datatype RouterRequest =
    | PairRemoval(tokenA: string, tokenB: string, liquidity: nat, amountAMin: nat, amountBMin: nat,
                  to: string, deadline: nat)
    | EthRemoval(token: string, liquidity: nat, amountTokenMin: nat, amountETHMin: nat,
                 to: string, deadline: nat)

  /** The router functions that take a request of this shape, in the order
      they are tried. */
  function MethodsFor(req: RouterRequest): seq<RouterMethod> {
    match req
    case PairRemoval(_, _, _, _, _, _, _) => [RemoveLiquidityMethod]
    case EthRemoval(_, _, _, _, _, _) =>
      [RemoveLiquidityETH, RemoveLiquidityETHSupportingFeeOnTransferTokens]
  }

  /** The positional argument list of a request. */
  function EncodeArgs(req: RouterRequest): seq<Arg> {
    match req
    case PairRemoval(a, b, l, minA, minB, to, dl) =>
      [AddressArg(a), AddressArg(b), DecimalArg(l), DecimalArg(minA), DecimalArg(minB), AddressArg(to), HexArg(dl)]
    case EthRemoval(t, l, minT, minE, to, dl) =>
      [AddressArg(t), DecimalArg(l), DecimalArg(minT), DecimalArg(minE), AddressArg(to), HexArg(dl)]
  }

  /** How the router reads a positional argument list for a method. */
  function DecodeArgs(m: RouterMethod, args: seq<Arg>): Option<RouterRequest> {
    if m == RemoveLiquidityMethod then
      if |args| == 7 && args[0].AddressArg? && args[1].AddressArg? && args[2].DecimalArg?
         && args[3].DecimalArg? && args[4].DecimalArg? && args[5].AddressArg? && args[6].HexArg?
      then Some(PairRemoval(args[0].address, args[1].address, args[2].n, args[3].n, args[4].n,
                            args[5].address, args[6].h))
      else None
    else
      if |args| == 6 && args[0].AddressArg? && args[1].DecimalArg? && args[2].DecimalArg?
         && args[3].DecimalArg? && args[4].AddressArg? && args[5].HexArg?
      then Some(EthRemoval(args[0].address, args[1].n, args[2].n, args[3].n, args[4].address, args[5].h))
      else None
  }

  /** Every method tried for a request reads its arguments back as that request. */
  lemma DecodeEncode(req: RouterRequest)
    ensures forall m :: m in MethodsFor(req) ==> DecodeArgs(m, EncodeArgs(req)) == Some(req)
  {
  }

  /** The router call `onRemove` prepares: candidate methods in priority
      order and one argument list shared by all of them. */
  datatype Call = Call(methods: seq<RouterMethod>, args: seq<Arg>)

  /** The request `onRemove` means to send once every check has passed.
      `minimum` is `amount => calculateSlippageAmount(amount, allowedSlippage)[0]`. */
  function Request(inp: RemoveInputs, minimum: nat -> nat): RouterRequest
    requires ReadyToRemove(inp)
  {
    var minA := minimum(inp.amountA.value);
    var minB := minimum(inp.amountB.value);
    var currencyBIsETH := inp.currency1.Ether?;
    if inp.currency0.Ether? || currencyBIsETH then
      EthRemoval(
        if currencyBIsETH then inp.tokenA.value.address else inp.tokenB.value.address,
        inp.liquidity.value,
        if currencyBIsETH then minA else minB,
        if currencyBIsETH then minB else minA,
        inp.account.value,
        inp.deadline.value)
    else
      PairRemoval(inp.tokenA.value.address, inp.tokenB.value.address, inp.liquidity.value,
                  minA, minB, inp.account.value, inp.deadline.value)
  }

  /** The first part of `onRemove`: the checks, in the order they throw,
      then the candidate methods and their shared argument list. Neither
      currency being ETH gives the single `removeLiquidity` candidate with
      both minimums in pair order; one side being ETH gives the two ETH
      candidates, with the token argument and the first minimum taken from
      the non-ETH side and the second minimum from the ETH side. */
  function BuildCall(inp: RemoveInputs, minimum: nat -> nat): (r: Result<Call, RemoveError>)
    ensures r.Ok? <==> ReadyToRemove(inp)
    ensures !DependenciesPresent(inp) ==> r == Err(MissingDependencies)
    ensures DependenciesPresent(inp) && (inp.amountA.None? || inp.amountB.None?) ==>
      r == Err(MissingCurrencyAmounts)
    ensures DependenciesPresent(inp) && inp.amountA.Some? && inp.amountB.Some? && inp.liquidity.None? ==>
      r == Err(MissingLiquidityAmount)
    ensures DependenciesPresent(inp) && inp.amountA.Some? && inp.amountB.Some? && inp.liquidity.Some?
            && (inp.tokenA.None? || inp.tokenB.None?) ==>
      r == Err(CouldNotWrap)
    ensures DependenciesPresent(inp) && inp.amountA.Some? && inp.amountB.Some? && inp.liquidity.Some?
            && inp.tokenA.Some? && inp.tokenB.Some? && inp.approval != Approved ==>
      r == Err(RemoveWithoutApproval)
    ensures r.Ok? && !inp.currency0.Ether? && !inp.currency1.Ether? ==>
      && r.value.methods == [RemoveLiquidityMethod]
      && DecodeArgs(RemoveLiquidityMethod, r.value.args) == Some(PairRemoval(
           inp.tokenA.value.address, inp.tokenB.value.address, inp.liquidity.value,
           minimum(inp.amountA.value), minimum(inp.amountB.value), inp.account.value, inp.deadline.value))
    ensures r.Ok? && (inp.currency0.Ether? || inp.currency1.Ether?) ==>
      && r.value.methods == [RemoveLiquidityETH, RemoveLiquidityETHSupportingFeeOnTransferTokens]
      && var tokenSide := if inp.currency1.Ether? then (inp.tokenA.value, inp.amountA.value)
                          else (inp.tokenB.value, inp.amountB.value);
         var ethAmount := if inp.currency1.Ether? then inp.amountB.value else inp.amountA.value;
         forall m :: m in r.value.methods ==> DecodeArgs(m, r.value.args) == Some(EthRemoval(
           tokenSide.0.address, inp.liquidity.value, minimum(tokenSide.1), minimum(ethAmount),
           inp.account.value, inp.deadline.value))
  {
    if !DependenciesPresent(inp) then Err(MissingDependencies)
    else if inp.amountA.None? || inp.amountB.None? then Err(MissingCurrencyAmounts)
    else if inp.liquidity.None? then Err(MissingLiquidityAmount)
    else if inp.tokenA.None? || inp.tokenB.None? then Err(CouldNotWrap)
    else if inp.approval != Approved then Err(RemoveWithoutApproval)
    else
      var req := Request(inp, minimum);
      DecodeEncode(req);
      Ok(Call(MethodsFor(req), EncodeArgs(req)))
  }

  /** `findIndex` over the joined estimates: the first position holding a
      successful estimate, or none when every estimate failed. */
  function FirstSuccess(estimates: seq<Option<nat>>): (r: Option<nat>)
    ensures r.Some? ==> r.value < |estimates| && estimates[r.value].Some?
    ensures r.Some? ==> forall j :: 0 <= j < r.value ==> estimates[j].None?
    ensures r.None? <==> forall j :: 0 <= j < |estimates| ==> estimates[j].None?
  {
    if |estimates| == 0 then None
    else if estimates[0].Some? then Some(0)
    else
      match FirstSuccess(estimates[1..])
      case None => None
      case Some(k) => Some(k + 1)
  }

  /** The gas estimate of each candidate, widened by the safety margin when
      it succeeded (`estimateGas(...).then(calculateGasMargin)`), in the
      candidates' order. */
  function SafeEstimates(methods: seq<RouterMethod>, args: seq<Arg>,
                         estimate: (RouterMethod, seq<Arg>) -> Option<nat>,
                         margin: nat -> nat): (r: seq<Option<nat>>)
    ensures |r| == |methods|
    ensures forall i :: 0 <= i < |methods| ==> (r[i].Some? <==> estimate(methods[i], args).Some?)
    ensures forall i :: 0 <= i < |methods| ==>
      r[i] == (match estimate(methods[i], args) case None => None case Some(g) => Some(margin(g)))
  {
    seq(|methods|, i requires 0 <= i < |methods| =>
      match estimate(methods[i], args) case None => None case Some(g) => Some(margin(g)))
  }

  /** The bare estimates of the candidates, in order. */
  function RawEstimates(methods: seq<RouterMethod>, args: seq<Arg>,
                        estimate: (RouterMethod, seq<Arg>) -> Option<nat>): (r: seq<Option<nat>>)
    ensures |r| == |methods|
    ensures forall i :: 0 <= i < |methods| ==> r[i] == estimate(methods[i], args)
  {
    seq(|methods|, i requires 0 <= i < |methods| => estimate(methods[i], args))
  }

  /** `findIndex` sees only which estimates succeeded. */
  lemma {:induction false} FirstSuccessSeesOnlySuccess(a: seq<Option<nat>>, b: seq<Option<nat>>)
    requires |a| == |b|
    requires forall i :: 0 <= i < |a| ==> (a[i].Some? <==> b[i].Some?)
    ensures FirstSuccess(a) == FirstSuccess(b)
    decreases |a|
  {
    if |a| > 0 && a[0].None? {
      FirstSuccessSeesOnlySuccess(a[1..], b[1..]);
    }
  }

  /** Widening the estimates by the safety margin never changes which
      candidate is submitted. */
  lemma MarginKeepsChoice(methods: seq<RouterMethod>, args: seq<Arg>,
                          estimate: (RouterMethod, seq<Arg>) -> Option<nat>, margin: nat -> nat)
    ensures FirstSuccess(SafeEstimates(methods, args, estimate, margin)) == FirstSuccess(RawEstimates(methods, args, estimate))
  {
    FirstSuccessSeesOnlySuccess(SafeEstimates(methods, args, estimate, margin), RawEstimates(methods, args, estimate));
  }

  /** The flags the modal shows while a removal is in progress. */
  datatype Flags = Flags(attemptingTxn: bool, txPending: bool, removeErrorMessage: string, txHash: string)

  const WAIT_ERROR_MESSAGE: string := "There is an error in transaction."

  /** No submission or confirmation is in progress. */
  predicate Idle(f: Flags) {
    !f.attemptingTxn && !f.txPending
  }

  /** How the wallet answered the submission. */
  datatype SendOutcome = Rejected | Accepted(hash: string)

  /** How waiting for the receipt ended. */
  datatype WaitOutcome = Mined | WaitFailed

  datatype Submission = Submission(routerMethod: RouterMethod, args: seq<Arg>, gasLimit: nat)

  datatype Outcome =
    | Threw(error: RemoveError)
    | AllEstimatesFailed
    | Submitted(submission: Submission)

  /** A run of `onRemove`: what happened, and the flag values after each
      state update, in order. */
  datatype RemoveRun = RemoveRun(outcome: Outcome, trace: seq<Flags>)

  /** The flag updates after a submission, one state per setter call:
      `attemptingTxn` on, then off on either answer; on acceptance
      `txPending` on and the hash recorded, then `txPending` off whichever
      way the wait ends, with the error message set only by a failed wait. */
  function SubmissionTrace(start: Flags, send: SendOutcome, wait: WaitOutcome): (t: seq<Flags>)
    ensures |t| >= 2
    ensures t[0].attemptingTxn
    ensures !t[|t| - 1].attemptingTxn
    ensures send.Accepted? ==> !t[|t| - 1].txPending
    ensures send.Accepted? ==> exists i :: 0 <= i < |t| && t[i].txPending && t[i].txHash == send.hash
    ensures send.Rejected? ==> forall i :: 0 <= i < |t| ==> t[i].txPending == start.txPending
    ensures forall i :: 0 <= i < |t| - 1 ==> t[i].removeErrorMessage == start.removeErrorMessage
    ensures t[|t| - 1].removeErrorMessage ==
      if send.Accepted? && wait.WaitFailed? then WAIT_ERROR_MESSAGE else start.removeErrorMessage
  {
    var attempting := start.(attemptingTxn := true);
    match send
    case Rejected =>
      [attempting, attempting.(attemptingTxn := false)]
    case Accepted(hash) =>
      var accepted := attempting.(attemptingTxn := false);
      var pending := accepted.(txPending := true);
      var hashed := pending.(txHash := hash);
      var done := hashed.(txPending := false);
      assert hashed.txPending && hashed.txHash == hash;
      var t := match wait
        case Mined => [attempting, accepted, pending, hashed, done]
        case WaitFailed => [attempting, accepted, pending, hashed, done, done.(removeErrorMessage := WAIT_ERROR_MESSAGE)];
      assert t[3] == hashed;
      t
  }

  /** `onRemove`. */
  function OnRemove(inp: RemoveInputs, minimum: nat -> nat,
                    estimate: (RouterMethod, seq<Arg>) -> Option<nat>, margin: nat -> nat,
                    send: SendOutcome, wait: WaitOutcome, start: Flags): (run: RemoveRun)
    ensures !ReadyToRemove(inp) <==> run.outcome.Threw?
    ensures run.outcome.Threw? ==> run.outcome.error == BuildCall(inp, minimum).error
    ensures !run.outcome.Submitted? ==> run.trace == []
    ensures run.outcome.Submitted? ==>
      var call := BuildCall(inp, minimum).value;
      var safe := SafeEstimates(call.methods, call.args, estimate, margin);
      exists k :: 0 <= k < |call.methods|
        && safe[k] == Some(run.outcome.submission.gasLimit)
        && run.outcome.submission.routerMethod == call.methods[k]
        && (forall j :: 0 <= j < k ==> estimate(call.methods[j], call.args).None?)
    ensures run.outcome.Submitted? ==> run.outcome.submission.args == BuildCall(inp, minimum).value.args
    ensures run.outcome.AllEstimatesFailed? <==>
      ReadyToRemove(inp) &&
      var call := BuildCall(inp, minimum).value;
      forall m :: m in call.methods ==> estimate(m, call.args).None?
  {
    match BuildCall(inp, minimum)
    case Err(e) => RemoveRun(Threw(e), [])
    case Ok(call) =>
      var safe := SafeEstimates(call.methods, call.args, estimate, margin);
      match FirstSuccess(safe)
      case None =>
        assert forall m :: m in call.methods ==> estimate(m, call.args).None? by {
          forall m | m in call.methods
            ensures estimate(m, call.args).None?
          {
            var i :| 0 <= i < |call.methods| && call.methods[i] == m;
            assert safe[i].None?;
          }
        }
        RemoveRun(AllEstimatesFailed, [])
      case Some(k) =>
        assert forall j :: 0 <= j < k ==> estimate(call.methods[j], call.args).None? by {
          forall j | 0 <= j < k
            ensures estimate(call.methods[j], call.args).None?
          {
            assert safe[j].None?;
          }
        }
        assert estimate(call.methods[k], call.args).Some?;
        RemoveRun(Submitted(Submission(call.methods[k], call.args, safe[k].value)),
                  SubmissionTrace(start, send, wait))
  }

  /** The last flag values after a run. */
  function FinalFlags(start: Flags, run: RemoveRun): Flags {
    if |run.trace| == 0 then start else run.trace[|run.trace| - 1]
  }

  /** A removal started from an idle modal always ends idle: it is never
      left attempting or pending, whatever the wallet and the chain answer.
      Only a failed receipt wait changes the error message. */
  lemma RemoveEndsIdle(inp: RemoveInputs, minimum: nat -> nat,
                       estimate: (RouterMethod, seq<Arg>) -> Option<nat>, margin: nat -> nat,
                       send: SendOutcome, wait: WaitOutcome, start: Flags)
    requires Idle(start)
    ensures Idle(FinalFlags(start, OnRemove(inp, minimum, estimate, margin, send, wait, start)))
    ensures var run := OnRemove(inp, minimum, estimate, margin, send, wait, start);
      FinalFlags(start, run).removeErrorMessage ==
        if run.outcome.Submitted? && send.Accepted? && wait.WaitFailed? then WAIT_ERROR_MESSAGE
        else start.removeErrorMessage
    ensures var run := OnRemove(inp, minimum, estimate, margin, send, wait, start);
      forall i :: 0 <= i < |run.trace| ==> !(run.trace[i].attemptingTxn && run.trace[i].txPending)
    ensures var run := OnRemove(inp, minimum, estimate, margin, send, wait, start);
      forall i :: 0 <= i < |run.trace| - 1 ==> run.trace[i].removeErrorMessage == start.removeErrorMessage
  {
  }
}

=== FILE: syrup_timer.dfy ===
/** The syrup-pool countdown label: remaining seconds split into days,
    hours, minutes and seconds with JavaScript's truncating `%`, the padded
    display string, the choice between the countdown and "Rewards Ended",
    and the once-a-second clock. */
module SyrupTimer {
  import opened JsText

  /** The component's units, `MINUTE = 60`, `HOUR = MINUTE * 60` and
      `DAY = HOUR * 24`, written out. */
  const MINUTE: int := 60
  const HOUR: int := 3600
  const DAY: int := 86400

  /** `a / d` rounded toward zero, the integer part of JavaScript's division. */
  function TruncQuot(a: int, d: int): int
    requires d > 0
  {
    if a >= 0 then a / d else -((-a) / d)
  }

  /** JavaScript's `a % d` on integers: the remainder of division truncated
      toward zero, so it takes the sign of `a` (Dafny's own `%` never
      returns a negative value). */
  function JsRem(a: int, d: int): (r: int)
    requires d > 0
    ensures a == d * TruncQuot(a, d) + r
    ensures a >= 0 ==> 0 <= r < d
    ensures a < 0 ==> -d < r <= 0
  {
    if a >= 0 then a % d else -((-a) % d)
  }

  /** `(t - t % unit) / unit`: the subtraction leaves an exact multiple of
      `unit`, so the division is exact and yields `t / unit` rounded toward
      zero. The component divides only by its three time units. */
  function WholeUnits(t: int, unit: int): (r: int)
    requires unit == DAY || unit == HOUR || unit == MINUTE
    ensures r == TruncQuot(t, unit)
    ensures r * unit == t - JsRem(t, unit)
  {
    (t - JsRem(t, unit)) / unit
  }

  datatype Countdown = Countdown(days: int, hours: int, minutes: int, seconds: int)

  /** The decomposition of `timeRemaining = exactEnd - currentTime`, step by
      step as the component computes it. */
  function Decompose(remaining: int): (c: Countdown)
    ensures c.days * DAY + c.hours * HOUR + c.minutes * MINUTE + c.seconds == remaining
  {
    var days := WholeUnits(remaining, DAY);
    var afterDays := remaining - days * DAY;
    var hours := WholeUnits(afterDays, HOUR);
    var afterHours := afterDays - hours * HOUR;
    var minutes := WholeUnits(afterHours, MINUTE);
    var seconds := afterHours - minutes * MINUTE;
    Countdown(days, hours, minutes, seconds)
  }

  /** Every component lies within its unit's range: non-negative for time
      still to run. */
  lemma DecomposeBoundsAhead(remaining: int)
    requires remaining >= 0
    ensures var c := Decompose(remaining);
      && c.days >= 0
      && 0 <= c.hours < 24
      && 0 <= c.minutes < 60
      && 0 <= c.seconds < 60
  {
  }

  /** Past the end, the truncating remainder makes every component
      non-positive, with the same magnitude bounds. */
  lemma DecomposeBoundsPast(remaining: int)
    requires remaining < 0
    ensures var c := Decompose(remaining);
      && c.days <= 0
      && -24 < c.hours <= 0
      && -60 < c.minutes <= 0
      && -60 < c.seconds <= 0
  {
  }

  /** For time still to run, the components are the ordinary quotient and
      remainders of the remaining seconds. */
  lemma DecomposeMatchesDivision(remaining: int)
    requires remaining >= 0
    ensures Decompose(remaining) == Countdown(
      remaining / DAY, (remaining % DAY) / HOUR, (remaining % HOUR) / MINUTE, remaining % MINUTE)
  {
    var days := WholeUnits(remaining, DAY);
    assert days == remaining / DAY;
    var afterDays := remaining - days * DAY;
    assert afterDays == remaining % DAY;
    var hours := WholeUnits(afterDays, HOUR);
    assert hours == (remaining % DAY) / HOUR;
    var afterHours := afterDays - hours * HOUR;
    assert afterHours == remaining % HOUR by {
      DayThenHour(remaining);
    }
    var minutes := WholeUnits(afterHours, MINUTE);
    assert minutes == (remaining % HOUR) / MINUTE;
    assert afterHours - minutes * MINUTE == remaining % MINUTE by {
      HourThenMinute(remaining);
    }
  }

  /** Reducing modulo a day and then modulo an hour is reducing modulo an hour. */
  lemma DayThenHour(t: int)
    requires t >= 0
    ensures (t % DAY) % HOUR == t % HOUR
  {
    var q := t / 86400;
    var m := t % 86400;
    assert t == 86400 * q + m;
    var a := m / 3600;
    var b := m % 3600;
    assert m == 3600 * a + b;
    RemainderAfterHours(24 * q + a, b);
  }

  /** Reducing modulo an hour and then modulo a minute is reducing modulo a minute. */
  lemma HourThenMinute(t: int)
    requires t >= 0
    ensures (t % HOUR) % MINUTE == t % MINUTE
  {
    var q := t / 3600;
    var m := t % 3600;
    assert t == 3600 * q + m;
    var a := m / 60;
    var b := m % 60;
    assert m == 60 * a + b;
    RemainderAfterMinutes(60 * q + a, b);
  }

  lemma RemainderAfterHours(k: int, b: int)
    requires 0 <= b < 3600
    ensures (3600 * k + b) % 3600 == b
  {
  }

  lemma RemainderAfterMinutes(k: int, b: int)
    requires 0 <= b < 60
    ensures (60 * k + b) % 60 == b
  {
  }

  function Negate(c: Countdown): Countdown {
    Countdown(-c.days, -c.hours, -c.minutes, -c.seconds)
  }

  /** Truncation is symmetric about zero: `t` seconds overdue decompose into
      the negated components of `t` seconds to go. */
  lemma DecomposeNegation(remaining: int)
    ensures Decompose(-remaining) == Negate(Decompose(remaining))
  {
    var days := WholeUnits(remaining, DAY);
    WholeUnitsOdd(remaining, DAY);
    var afterDays := remaining - days * DAY;
    assert -remaining - WholeUnits(-remaining, DAY) * DAY == -afterDays;
    var hours := WholeUnits(afterDays, HOUR);
    WholeUnitsOdd(afterDays, HOUR);
    var afterHours := afterDays - hours * HOUR;
    assert -afterDays - WholeUnits(-afterDays, HOUR) * HOUR == -afterHours;
    var minutes := WholeUnits(afterHours, MINUTE);
    WholeUnitsOdd(afterHours, MINUTE);
    assert -afterHours - WholeUnits(-afterHours, MINUTE) * MINUTE == -(afterHours - minutes * MINUTE);
  }

  lemma WholeUnitsOdd(t: int, unit: int)
    requires unit == DAY || unit == HOUR || unit == MINUTE
    ensures WholeUnits(-t, unit) == -WholeUnits(t, unit)
  {
    if t == 0 {
      assert 0 / unit == 0;
    }
  }

  /** `${days}d ${hours.padStart(2,'0')}h ${minutes.padStart(2,'0')}m ${seconds}s` */
  function Label(c: Countdown): string {
    IntToString(c.days) + "d "
      + PadStart(IntToString(c.hours), 2, '0') + "h "
      + PadStart(IntToString(c.minutes), 2, '0') + "m "
      + IntToString(c.seconds) + "s"
  }

  /** While time remains, hours and minutes are always two digits wide and
      days and seconds are printed as is; the label is read back unambiguously. */
  lemma LabelAhead(remaining: int)
    requires remaining >= 0
    ensures var c := Decompose(remaining);
      Label(c) == NatToString(c.days) + "d "
        + [DigitChar(c.hours / 10), DigitChar(c.hours % 10)] + "h "
        + [DigitChar(c.minutes / 10), DigitChar(c.minutes % 10)] + "m "
        + NatToString(c.seconds) + "s"
  {
    DecomposeBoundsAhead(remaining);
    LabelShape(Decompose(remaining));
  }

  /** `text` reads back as `c` when the day count is `n` characters wide:
      the fields parse to the days, hours, minutes and seconds, separated
      by "d ", "h ", "m " and ended by "s". */
  predicate ReadsBack(text: string, n: nat, c: Countdown) {
    && |text| > n + 10
    && AllDigits(text[..n]) && ParseDigits(text[..n]) == c.days
    && text[n..n + 2] == "d "
    && AllDigits(text[n + 2..n + 4]) && ParseDigits(text[n + 2..n + 4]) == c.hours
    && text[n + 4..n + 6] == "h "
    && AllDigits(text[n + 6..n + 8]) && ParseDigits(text[n + 6..n + 8]) == c.minutes
    && text[n + 8..n + 10] == "m "
    && AllDigits(text[n + 10..|text| - 1]) && ParseDigits(text[n + 10..|text| - 1]) == c.seconds
    && text[|text| - 1] == 's'
  }

  /** A countdown with no negative part and hours and minutes below 100
      (as every countdown shown while time remains is, by
      `DecomposeBoundsAhead`) reads back from its label. */
  lemma LabelReadsBack(c: Countdown)
    requires c.days >= 0 && 0 <= c.hours < 100 && 0 <= c.minutes < 100 && c.seconds >= 0
    ensures ReadsBack(Label(c), |NatToString(c.days)|, c)
  {
    var days, seconds := NatToString(c.days), NatToString(c.seconds);
    var hh := [DigitChar(c.hours / 10), DigitChar(c.hours % 10)];
    var mm := [DigitChar(c.minutes / 10), DigitChar(c.minutes % 10)];
    LabelShape(c);
    ParsePrintedNat(c.days);
    ParsePrintedNat(c.seconds);
    TwoDigitsParse(c.hours);
    TwoDigitsParse(c.minutes);
    LabelFields(days, hh, mm, seconds, c);
  }

  /** A label-shaped string whose fields print the parts of `c` reads back as `c`. */
  lemma LabelFields(days: string, hh: string, mm: string, seconds: string, c: Countdown)
    requires |hh| == 2 && |mm| == 2
    requires AllDigits(days) && ParseDigits(days) == c.days
    requires AllDigits(hh) && ParseDigits(hh) == c.hours
    requires AllDigits(mm) && ParseDigits(mm) == c.minutes
    requires AllDigits(seconds) && ParseDigits(seconds) == c.seconds
    ensures ReadsBack(days + "d " + hh + "h " + mm + "m " + seconds + "s", |days|, c)
  {
    var text, n := days + "d " + hh + "h " + mm + "m " + seconds + "s", |days|;
    LabelPositions(days, hh, mm, seconds);
    var last := |text| - 1;
    assert last == n + 10 + |seconds|;
    assert text[n + 10..last] == seconds;
    FieldParses(text, 0, n, days, c.days);
    FieldParses(text, n + 2, n + 4, hh, c.hours);
    FieldParses(text, n + 6, n + 8, mm, c.minutes);
    FieldParses(text, n + 10, last, seconds, c.seconds);
  }

  /** A slice equal to a digit string reads as that string does. */
  lemma FieldParses(text: string, i: nat, j: nat, field: string, v: nat)
    requires i <= j <= |text| && text[i..j] == field
    requires AllDigits(field) && ParseDigits(field) == v
    ensures AllDigits(text[i..j]) && ParseDigits(text[i..j]) == v
  {
  }

  /** The label of a countdown with no negative part and hours and minutes
      below 100: plain day and second counts, two-digit hours and minutes. */
  lemma LabelShape(c: Countdown)
    requires c.days >= 0 && 0 <= c.hours < 100 && 0 <= c.minutes < 100 && c.seconds >= 0
    ensures Label(c) == NatToString(c.days) + "d "
      + [DigitChar(c.hours / 10), DigitChar(c.hours % 10)] + "h "
      + [DigitChar(c.minutes / 10), DigitChar(c.minutes % 10)] + "m "
      + NatToString(c.seconds) + "s"
  {
    assert IntToString(c.days) == NatToString(c.days);
    assert IntToString(c.seconds) == NatToString(c.seconds);
    assert IntToString(c.hours) == NatToString(c.hours);
    assert IntToString(c.minutes) == NatToString(c.minutes);
    TwoDigitPad(c.hours);
    TwoDigitPad(c.minutes);
  }

  /** Where each field of a label-shaped string sits. */
  lemma LabelPositions(days: string, hh: string, mm: string, seconds: string)
    requires |hh| == 2 && |mm| == 2
    ensures var text := days + "d " + hh + "h " + mm + "m " + seconds + "s";
      var n := |days|;
      && |text| == n + 11 + |seconds|
      && text[..n] == days
      && text[n..n + 2] == "d "
      && text[n + 2..n + 4] == hh
      && text[n + 4..n + 6] == "h "
      && text[n + 6..n + 8] == mm
      && text[n + 8..n + 10] == "m "
      && text[n + 10..|text| - 1] == seconds
      && text[|text| - 1] == 's'
  {
    var head := days + "d " + hh + "h " + mm + "m ";
    var text := head + seconds + "s";
    var n := |days|;
    assert text[..n + 10] == head;
    assert text[n + 10..|text| - 1] == seconds;
    assert head[..n] == days;
    assert head[n..n + 2] == "d ";
    assert head[n + 2..n + 4] == hh;
    assert head[n + 4..n + 6] == "h ";
    assert head[n + 6..n + 8] == mm;
    assert head[n + 8..n + 10] == "m ";
  }

  /** A JavaScript number that is either a finite integer or not finite
      (`NaN` or an infinity). */
  datatype JsNumber = Finite(value: int) | NonFinite

  /** The countdown block renders when `!isEnded && Number.isFinite(timeRemaining)`. */
  predicate ShowsCountdown(exactEnd: JsNumber, isEnded: bool) {
    !isEnded && exactEnd.Finite?
  }

  /** The "Rewards Ended" note renders when `isEnded || !Number.isFinite(timeRemaining)`. */
  predicate ShowsEnded(exactEnd: JsNumber, isEnded: bool) {
    isEnded || exactEnd.NonFinite?
  }

  datatype TimerView = CountdownView(text: string) | RewardsEnded

  function View(exactEnd: JsNumber, isEnded: bool, currentTime: int): (v: TimerView)
    ensures v.CountdownView? <==> ShowsCountdown(exactEnd, isEnded)
    ensures v.RewardsEnded? <==> ShowsEnded(exactEnd, isEnded)
    ensures v.CountdownView? ==> v.text == Label(Decompose(exactEnd.value - currentTime))
  {
    if ShowsCountdown(exactEnd, isEnded) then CountdownView(Label(Decompose(exactEnd.value - currentTime)))
    else RewardsEnded
  }

  /** Exactly one of the two blocks renders, and which one does not depend
      on the clock: an overdue end time still shows a (negative) countdown. */
  lemma ExactlyOneBlock(exactEnd: JsNumber, isEnded: bool, now1: int, now2: int)
    ensures ShowsCountdown(exactEnd, isEnded) != ShowsEnded(exactEnd, isEnded)
    ensures View(exactEnd, isEnded, now1).CountdownView? == View(exactEnd, isEnded, now2).CountdownView?
  {
  }

  /** `Math.floor(Date.now() / 1000)`: the clock in whole seconds. */
  function CurrentSeconds(nowMillis: int): (s: int)
    ensures s * 1000 <= nowMillis < s * 1000 + 1000
  {
    nowMillis / 1000
  }

  /** One tick of the clock. The interval is installed only while the
      rewards have not ended, so an ended timer keeps its last reading. */
  function Tick(isEnded: bool, currentTime: int, nowMillis: int): (t: int)
    ensures isEnded ==> t == currentTime
    ensures !isEnded ==> t * 1000 <= nowMillis < t * 1000 + 1000
  {
    if isEnded then currentTime else CurrentSeconds(nowMillis)
  }
}

=== FILE: transactions_table.dfy ===
/** The transactions table: the type filter (-1 meaning all), the
    translation key and symbols of each row's description, the column sort
    keys and the table's defaults. The numeric values of the transaction
    types come from a constants file that is not part of this model; the
    TypeScript numeric-enum defaults are used. */
module TransactionsTable {
  import opened Common

  const ALL: int := -1
  const SWAP: int := 0
  const ADD: int := 1
  const REMOVE: int := 2

  /** The filter a fresh table starts with. */
  const INITIAL_FILTER: int := ALL

  const ROWS_PER_PAGE: nat := 10

  datatype TxRow = TxRow(
    txType: int,
    pairToken0Symbol: string,
    pairToken1Symbol: string,
    amountUSD: real,
    amount0: real,
    amount1: real,
    transactionId: string,
    timestamp: int)

  /** Row kept by filter value `filter`. */
  predicate Keeps(filter: int, row: TxRow) {
    filter == ALL || row.txType == filter
  }

  /** `data.filter(item => txFilter === -1 ? true : item.type === txFilter)`:
      "all" keeps the data as it is; any other value keeps exactly the rows
      of that type, in their order. */
  function FilterRows(data: seq<TxRow>, filter: int): (r: seq<TxRow>)
    ensures filter == ALL ==> r == data
    ensures filter != ALL ==> forall i :: 0 <= i < |r| ==> r[i].txType == filter
    ensures forall row :: row in data && (filter == ALL || row.txType == filter) ==> row in r
    ensures IsSubsequence(r, data)
    ensures forall row :: row in data ==> multiset(r)[row] == if Keeps(filter, row) then multiset(data)[row] else 0
  {
    var keep := (row: TxRow) => Keeps(filter, row);
    FilterIsSubsequence(data, keep);
    Filter(data, keep)
  }

  /** When every row is a swap, an add or a remove, the three type filters
      split the data: each row appears under exactly one of them. */
  lemma TypeFiltersSplitData(data: seq<TxRow>)
    requires forall i :: 0 <= i < |data| ==> data[i].txType in {SWAP, ADD, REMOVE}
    ensures multiset(FilterRows(data, SWAP)) + multiset(FilterRows(data, ADD)) + multiset(FilterRows(data, REMOVE))
            == multiset(data)
    ensures |FilterRows(data, SWAP)| + |FilterRows(data, ADD)| + |FilterRows(data, REMOVE)| == |data|
  {
    var swaps, adds, removes := FilterRows(data, SWAP), FilterRows(data, ADD), FilterRows(data, REMOVE);
    var split := multiset(swaps) + multiset(adds) + multiset(removes);
    forall row | true
      ensures split[row] == multiset(data)[row]
    {
      if row in data {
        var i :| 0 <= i < |data| && data[i] == row;
        assert row.txType in {SWAP, ADD, REMOVE};
      } else {
        assert row !in swaps && row !in adds && row !in removes;
      }
    }
    assert split == multiset(data);
    assert |split| == |swaps| + |adds| + |removes|;
  }

  /** Choosing a type filter twice shows the same rows as choosing it once. */
  lemma FilterIdempotent(data: seq<TxRow>, filter: int)
    ensures FilterRows(FilterRows(data, filter), filter) == FilterRows(data, filter)
  {
  }

  /** The filter starts at "all", so a fresh table shows every row. */
  lemma InitialFilterShowsAll(data: seq<TxRow>)
    ensures FilterRows(data, INITIAL_FILTER) == data
  {
  }

  datatype MessageKey = TxnSwapMessage | TxnAddMessage | TxnRemoveMessage

  /** The transaction type a message key describes. */
  function KeyType(k: MessageKey): int {
    match k
    case TxnSwapMessage => SWAP
    case TxnAddMessage => ADD
    case TxnRemoveMessage => REMOVE
  }

  /** A row's description: a translation key with its message data, or the
      empty string. */
  datatype TxString = Translated(key: MessageKey, token0Symbol: string, token1Symbol: string) | Empty

  /** `getTxString`: swaps, adds and removes get their own message; every
      other type is described by the empty string. The message data takes
      `token0Symbol` from the pair's token1 and `token1Symbol` from its token0. */
  function GetTxString(row: TxRow): (r: TxString)
    ensures r.Translated? <==> row.txType in {SWAP, ADD, REMOVE}
    ensures r.Translated? ==> KeyType(r.key) == row.txType
    ensures r.Translated? ==> r.token0Symbol == row.pairToken1Symbol && r.token1Symbol == row.pairToken0Symbol
  {
    var key :=
      if row.txType == SWAP then Some(TxnSwapMessage)
      else if row.txType == ADD then Some(TxnAddMessage)
      else if row.txType == REMOVE then Some(TxnRemoveMessage)
      else None;
    match key
    case None => Empty
    case Some(k) => Translated(k, row.pairToken1Symbol, row.pairToken0Symbol)
  }

  /** Different transaction types never share a message. */
  lemma MessageKeysDistinguishTypes(a: TxRow, b: TxRow)
    requires GetTxString(a).Translated? && GetTxString(b).Translated?
    ensures GetTxString(a).key == GetTxString(b).key <==> a.txType == b.txType
  {
  }

  datatype Column = Description | TotalValue | TokenAmount1 | TokenAmount2 | Txn | Time

  const HEAD_CELLS: seq<Column> := [Description, TotalValue, TokenAmount1, TokenAmount2, Txn, Time]

  /** The table opens ordered by the sixth head cell. */
  const DEFAULT_ORDER_INDEX: nat := 5

  datatype SortValue = NumberKey(n: real) | TextKey(s: string)

  /** The sort key of each column; the description column cannot be sorted.
      The first token-amount column sorts by `amount1` and the second by
      `amount0`, matching the amounts they show. */
  function SortKey(c: Column, row: TxRow): (k: Option<SortValue>)
    ensures k.None? <==> c == Description
    ensures c == TotalValue ==> k == Some(NumberKey(row.amountUSD))
    ensures c == TokenAmount1 ==> k == Some(NumberKey(row.amount1))
    ensures c == TokenAmount2 ==> k == Some(NumberKey(row.amount0))
    ensures c == Txn ==> k == Some(TextKey(row.transactionId))
  {
    match c
    case Description => None
    case TotalValue => Some(NumberKey(row.amountUSD))
    case TokenAmount1 => Some(NumberKey(row.amount1))
    case TokenAmount2 => Some(NumberKey(row.amount0))
    case Txn => Some(TextKey(row.transactionId))
    case Time => Some(NumberKey(-(row.timestamp as real)))
  }

  /** The default column is Time, whose key is the negated timestamp: in
      ascending order of key, later transactions come first. */
  lemma DefaultOrderIsNewestFirst(a: TxRow, b: TxRow)
    ensures HEAD_CELLS[DEFAULT_ORDER_INDEX] == Time
    ensures SortKey(Time, a).value.n <= SortKey(Time, b).value.n <==> a.timestamp >= b.timestamp
  {
  }

  datatype TableView = TableView(showPagination: bool, rows: seq<TxRow>, defaultOrderBy: Column, rowsPerPage: nat)

  /** The table as configured: the pagination switch looks at the
      unfiltered data, while the rows are the filtered ones. */
  function Table(data: seq<TxRow>, filter: int): (v: TableView)
    ensures v.showPagination <==> |data| > ROWS_PER_PAGE
    ensures v.rows == FilterRows(data, filter)
    ensures v.defaultOrderBy == Time && v.rowsPerPage == ROWS_PER_PAGE
  {
    TableView(|data| > ROWS_PER_PAGE, FilterRows(data, filter), HEAD_CELLS[DEFAULT_ORDER_INDEX], ROWS_PER_PAGE)
  }

  /** Without pagination every shown row fits on the single page; and
      since the switch looks at the unfiltered data, eleven swaps under the
      "add" filter turn pagination on over an empty page. */
  lemma PaginationFollowsUnfilteredData(data: seq<TxRow>, filter: int, swap: TxRow)
    requires swap.txType == SWAP
    ensures !Table(data, filter).showPagination ==> |Table(data, filter).rows| <= Table(data, filter).rowsPerPage
    ensures var v := Table(seq(ROWS_PER_PAGE + 1, _ => swap), ADD);
      v.showPagination && v.rows == []
  {
  }

  /** The table opens on its default column, whose key puts later
      transactions first. */
  lemma TableOpensNewestFirst(data: seq<TxRow>, filter: int, a: TxRow, b: TxRow)
    ensures var v := Table(data, filter);
      SortKey(v.defaultOrderBy, a).Some?
      && (SortKey(v.defaultOrderBy, a).value.n <= SortKey(v.defaultOrderBy, b).value.n <==> a.timestamp >= b.timestamp)
  {
  }
}
